=== FILE: README.md ===
# flatten-json in Dafny

A model of the two transforms of the flatten-json tools, with proofs about them.

The **flattener** (`get_id`, `flatten`, `clean` in flatten_json.py, repeated in api/backend/lambda_function.py with the same code) splits a nested JSON document into flat collections of records. Each collection is named after its path of keys joined with `_`. The records carry two synthetic linkage fields:
- `id`, the id inherited from the document;
- `__index`, the position in an enclosing array.

A cleaning pass then removes records that hold no data of their own.

The **reconstructor** (`reconstruct_json` with `get_deepest_obj`, `get_attribute_name`, `get_parent_filename` and `clean_obj` in reconstruct_json.py) works the other way. It repeatedly folds the deepest collection into its parent, found by stripping name pieces. It then renames the last collection with a trailing `s`.

The code of lines 89-196 of api/backend/lambda_function.py repeats that of flatten_json.py:60-167, each line 29 further down; only the `Returns` line of the `flatten` docstring and the trailing spaces of one blank line differ. The same members therefore model both copies, and the table cites the flatten_json.py lines.

The **handler** composition in `lambda_handler` flattens and cleans a decoded document when Python considers it true.

Layout, one module per file:

- `Dicts.dfy`: a Python `dict` with string keys, as an insertion-ordered association list.
  - Lookup and assignment act on the first entry with a key; an assignment to a new key appends.
  - `Keyed` (no duplicate key) holds for every dict Python builds.
- `Json.dfy`: the decoded JSON value, records, collection sets, the Python exceptions as an `Error` datatype inside `Result`, and `str(n)` for naturals.
- `Flattener.dfy`: `get_id` and `flatten`, as mutually recursive functions.
  - The mutual recursion runs over the value, the member loop and the element loop, threading the collection set, the current name, the inherited id, the array index and the `set_index` flag.
  - Lemmas state what each branch writes, what is kept, record counts and well-formedness.
- `FlattenExamples.dfy`: whole documents flattened. The scalars are symbolic.
- `Cleaner.dfy`: `clean`, twice.
  - As a pure filter (`Clean`).
  - As the loop the source runs (`CleanAll`, `CleanRecords`), proved equal to the filter.
- `Naming.dfy`: `str.split('_')` and `'_'.join`, their two round trips, and the depth, last piece and parent path of a name.
- `Reconstructor.dfy`: the reconstructor, one function per helper, the loop with the collection count as its measure, and every exception the loop can raise.
- `ReconstructExamples.dfy`: worked examples of `reconstruct_json` on small collection sets.
- `Handler.dfy`: the flatten-then-clean step of `lambda_handler`.

Numbers are `int`. Python's `str(index)` is `Json.Decimal`. Every `KeyError` and `IndexError` the source can raise is an `Err` result. The one unbounded recursion, in `get_parent_filename`, is the `NoParent` error. A read of `remaining_keys` before it is bound is `UnboundRemainingKeys`.

Where the code and its documented design differ, the model follows the code:

- **Single-field nested objects.** A nested object with exactly one field opens no record, so its scalar goes to the last record of the collection its name would open. It is never lifted onto the parent record (`Flattener.SingleFieldChild`).
  - When no earlier member opened that name, the collection does not exist and `flatten` raises `KeyError` (`FlattenExamples.SingleFieldChildFails`).
  - When an earlier member did open it, nothing is raised and the scalar overwrites that field of the collection's last record. In `{"as": [{"b": {"x": 1, "y": 2}}, {"b": {"x": 3}}]}` the second `b` turns x from 1 into 3 in the one `a_b` record, the record of element 0.
- **Root scalars.** Every scalar written with an empty collection name resets `output` to one fresh record. So for a root object only its last scalar member survives, not only for a scalar document (`FlattenExamples.RootScalarsOverwrite`).
- **Where `__index` goes.** In the nested-object case, `__index` goes to the record at position `index` of the child collection, not to the record just appended (`Flattener.AppendOpened`).
- **The root collection keeps its linkage fields.** `clean_obj` is applied only to children, so the root collection keeps its `id` fields after reconstruction (`ReconstructExamples.ParentFirstRebuilds`).
- **No round trip for root objects.** Reconstruction reads what `clean` leaves, and for a root object that is rarely something it can rebuild:
  - The `output` collection of root scalars holds one record with one field, so `clean` removes it. The exception is a later root array member named `outputs`: it lists its elements into `output` after that record, and those records can survive `clean` (`FlattenExamples.OutputsJoinOutput`).
  - An object member of several scalars under a key without `_` becomes a top-level collection named by one piece, whose parent path is "". A member with a single field opens no collection at all, and raises the `KeyError` above when no earlier member opened its name, and a key containing `_` gives a name of several pieces.
  - Once two one-piece collections are left and "" is not among them, the parent search ends in `NoParent` (`ReconstructExamples.TopLevelPairHasNoParent`).
  - "" can be a collection: an empty-list member under a one-character key, such as `"s": []`, names the collection "" and adds no records to it. An empty collection never makes `clean` drop it, so "" survives, and a one-piece sibling then finds "" as its parent (`ReconstructExamples.EmptyListOpensUnnamedCollection`).
  - When only one collection survives `clean`, the loop never runs and the rename reads `remaining_keys` unbound (`UnboundRemainingKeys`).

## Model

| member | source | states |
|---|---|---|
| Flattener.GetId | flatten_json.py:60-73 | no `id` member gives None; otherwise the value of the object's own `id` member; nested objects are not consulted |
| Flattener.NewRecord | flatten_json.py:102-107 | a fresh record holds nothing but the inherited id, and holds it exactly when one is inherited |
| Flattener.DropLast | flatten_json.py:114-116 | `key[:-1]` removes exactly the final character, and leaves "" as it is |
| Flattener.ChildName | flatten_json.py:97-100 | at the root the child name is the key; below a prefix it is the prefix, then `_`, then the key |
| Flattener.ListChildName | flatten_json.py:112-116 | a list-valued key names the collection its object-valued twin would get, less exactly the key's last character, whatever that character is; an empty key (where `key[:-1]` is also empty) names the same collection as its object-valued twin |
| Flattener.EnsureCollection | flatten_json.py:117-118 | an existing collection is kept unchanged; a missing one is created empty; no other collection changes |
| Flattener.AppendOpened | flatten_json.py:102-109 | appends exactly one record with the inherited id; with `set_index`, writes `__index = str(index)` into the record at position `index` (not necessarily the new one), and fails exactly when the list is too short; all other records are unchanged |
| Flattener.OpenRecord | flatten_json.py:101-109 | an object of at most one field appends nothing; otherwise the collection is created or extended by AppendOpened, failing exactly when AppendOpened fails, and no other collection changes |
| Flattener.ItemRecord | flatten_json.py:126-131 | the record for element i of n has `id` exactly when an id is inherited and `__index = str(i)` exactly when n > 1, and no other field |
| Flattener.AppendItemRecord | flatten_json.py:125-131 | fails with KeyError exactly when the current collection is missing; otherwise appends exactly that element's record and changes nothing else |
| Flattener.WithLastField | flatten_json.py:139 | only the last record changes, gaining or overwriting the key and keeping every other field |
| Flattener.WriteLast | flatten_json.py:139 | succeeds exactly when the collection exists and is non-empty; then only its last record changes, by the key |
| Flattener.StoreScalar | flatten_json.py:134-139 | with an empty name, `output` becomes exactly one record holding just this key; otherwise the write lands on the last record of the current collection and fails exactly on a missing or empty one |
| Flattener.FlattenValue | flatten_json.py:91-139 | no collection name ever disappears |
| Flattener.FlattenFields | flatten_json.py:95-122 | the member loop never removes a collection name |
| Flattener.FlattenMember | flatten_json.py:96-122 | one member never removes a collection name |
| Flattener.FlattenItems | flatten_json.py:124-132 | the element loop never removes a collection name |
| Flattener.FlattenItem | flatten_json.py:125-132 | one element never removes a collection name |
| Flattener.ValueGrows | flatten_json.py:91-139 | a flatten call keeps every collection name, and below a non-empty name it changes no collection with a shorter name |
| Flattener.ValueKeepsWellFormed | flatten_json.py:91-139 | every write keeps the collection set and its records free of duplicate keys |
| Flattener.Flatten | flatten_json.py:76-141 | `flatten({}, doc)`, when it succeeds, yields proper dicts of proper dicts; the worked cases are `RootScalar`, `RootArray` and the examples |
| Flattener.ItemsAddOneRecordEach | flatten_json.py:124-132 | an array of n elements, none of them arrays, appends exactly n records to the current collection |
| Flattener.ItemAddsOneRecord | flatten_json.py:125-132 | one non-array element adds exactly its own record |
| Flattener.ElementKeepsCount | flatten_json.py:91-122 | a non-array value flattened into a collection adds no record to it |
| Flattener.FieldsKeepCount | flatten_json.py:95-122 | the member loop leaves the current collection's length unchanged |
| Flattener.MemberKeepsCount | flatten_json.py:96-122 | one member leaves the current collection's length unchanged |
| Flattener.ScalarsFillLastRecord | flatten_json.py:121-122 | scalar members are assigned one by one into the last record of the current collection, wherever it sits among the collections, later keys overwriting earlier ones; nothing else changes |
| Flattener.ScalarChildOpensRecord | flatten_json.py:96-110 | a new child object of several scalars becomes one record of `prefix_key`: the inherited id, then its members |
| Flattener.ScalarGoesToLast | flatten_json.py:134-139 | a scalar under the empty key below a non-empty name is written into the last record of that collection and nowhere else |
| Flattener.ScalarValueElement | flatten_json.py:125-139 | a scalar element appends a record of its own holding the id, the position when there are several elements, and the element under the empty key `""`; nothing else changes |
| Flattener.ScalarElementAddsRecord | flatten_json.py:125-139 | an element that is a scalar or an object of scalars appends exactly one record to the current collection: the id, the position when there are several elements, then its members or the scalar under `""` |
| Flattener.ScalarElementsAddRecords | flatten_json.py:124-132 | an array of scalars and scalar objects appends to the current collection, wherever it sits among the collections and in order, one record per element, each with the id, the position when there are several elements, and its members or the scalar under `""` |
| Flattener.ScalarArrayMember | flatten_json.py:112-119 | an array member of scalars and scalar objects becomes a new collection named with `key[:-1]`, one record per element |
| Flattener.ArrayJoinsCollection | flatten_json.py:112-132 | an array member of scalars and scalar objects whose collection already exists adds one record per element, in order, after that collection's records, and changes nothing else |
| Flattener.SingleFieldChild | flatten_json.py:101-110 | an object member with one scalar field opens no record: its field is written (line 139) into the last record of the member's collection when that exists and is not empty, and is KeyError on the member's name when the collection does not exist |
| Flattener.RootScalarMember | flatten_json.py:134-139 | a scalar member of the root object replaces `output` with a single record of just that member |
| Flattener.RootScalar | flatten_json.py:134-139 | a bare scalar document becomes one `output` record holding it under the empty key |
| Flattener.RootArray | flatten_json.py:124-126 | a non-empty array at the root raises KeyError on the missing collection ""; an empty one yields nothing |
| FlattenExamples.IdReachesChild | flatten_json.py:91-110 | a child object of two fields becomes its own collection, with the document's id copied in |
| FlattenExamples.SingleFieldChildFails | flatten_json.py:101-139 | a single-field child object whose name no earlier member opened has no collection to write to, so its scalar raises KeyError |
| FlattenExamples.OutputsJoinOutput | flatten_json.py:112-139 | a root array member named `outputs` lists its element into `output` after the record of the root scalar |
| FlattenExamples.RootScalarsOverwrite | flatten_json.py:135-139 | of two root scalars only the last survives in `output` |
| FlattenExamples.ArrayBecomesIndexedRecords | flatten_json.py:112-132 | `items` becomes collection `item`, one record per element, carrying the id and `__index` "0" and "1" |
| FlattenExamples.ScalarArrayBecomesRecords | flatten_json.py:112-139 | `tags: [a, b]` becomes collection `tag`, one record per element, carrying the id, `__index` "0" and "1", and the element under `""` |
| FlattenExamples.InheritedIdIsNotReplaced | flatten_json.py:92-93 | a nested object's own `id` stays an ordinary field of its record, while the grandchild still gets the root's id |
| Cleaner.LinkageOnlyIsDegenerate | flatten_json.py:160 | the removal test (`Degenerate`) holds of every record made only of linkage fields, and of no record with more than two keys |
| Cleaner.Keep | flatten_json.py:158-161 | the filter never lengthens the list and leaves no degenerate record; `KeepMembers` gives the membership both ways |
| Cleaner.KeepMembers | flatten_json.py:158-161 | a record survives exactly when it was present and has at least two keys, not exactly `id` and `__index` |
| Cleaner.KeepAppend | flatten_json.py:158-161 | the filter works record by record, so survivors keep their order |
| Cleaner.KeepShrinks | flatten_json.py:158-161 | the filter never adds records, and removes one exactly when some record is degenerate |
| Cleaner.KeepIdempotent | flatten_json.py:158-161 | filtering twice equals filtering once |
| Cleaner.RemoveFirst | flatten_json.py:160 | `list.remove` succeeds exactly when the record is present, and removes exactly one |
| Cleaner.RemoveFirstAfter | flatten_json.py:160 | `remove` takes the first equal record, leaving everything before it |
| Cleaner.CleanRecords | flatten_json.py:157-161 | the remove-while-iterating-a-copy loop computes exactly the filter; it reports a removal exactly when some record was degenerate, which is exactly when the list got shorter |
| Cleaner.Clean | flatten_json.py:157-165 | cleaning never adds a collection |
| Cleaner.CleanAll | flatten_json.py:157-167 | the source's loop over the keys equals the pure `Clean` |
| Cleaner.CleanGet | flatten_json.py:162-165 | a collection is deleted exactly when it had records and all of them were degenerate (an already empty one stays); a survivor holds exactly the kept records |
| Cleaner.CleanKeys | flatten_json.py:157-165 | cleaning invents no name and keeps the dict proper |
| Cleaner.CleanLeavesData | flatten_json.py:159-161 | no record left after cleaning is degenerate |
| Cleaner.CleanWellFormed | flatten_json.py:144-167 | cleaning keeps a well-formed collection set well formed |
| Cleaner.CleanIdempotent | flatten_json.py:144-167 | cleaning twice equals cleaning once |
| Naming.Split | reconstruct_json.py:58 | `split('_')` gives at least one piece, none containing `_` |
| Naming.SplitOnePiece | reconstruct_json.py:58 | a name splits into one piece exactly when it holds no `_` |
| Naming.Depth | reconstruct_json.py:58 | the depth is at least one, and exactly one when the name holds no `_` |
| Naming.LastSegment | reconstruct_json.py:65 | the last piece is the `_`-free stretch that ends the name, preceded by `_` unless it is the whole name, which it is exactly when the name holds no `_` |
| Naming.ParentPath | reconstruct_json.py:71 | the parent path is the stretch before the name's last `_`, and "" for a name without `_` |
| Naming.Join | reconstruct_json.py:71 | `'_'.join`; splitting a join of `_`-free pieces gives the pieces back (`SplitJoin`), and `JoinSplit` is the other round trip |
| Naming.JoinSplit | reconstruct_json.py:71 | joining the pieces of a split gives the name back |
| Naming.SplitJoin | reconstruct_json.py:71 | splitting a join of `_`-free pieces gives the pieces back |
| Naming.ParentAndLast | reconstruct_json.py:65-71 | a name is its parent path, `_`, and its last piece; a one-piece name has parent "" and is its own last piece; the parent of a non-empty name is shorter |
| Naming.AppendSegment | reconstruct_json.py:64-74 | below a name, a `_`-free key becomes the last piece, the name becomes the parent path, and the depth grows by one |
| Reconstructor.Lookup | reconstruct_json.py:98-104 | `all_data[k]` succeeds exactly for a present key and returns its entry; otherwise KeyError(k) |
| Reconstructor.DeepestScan | reconstruct_json.py:55-61 | the scan ends on a valid position of the list |
| Reconstructor.ScanFindsFirstDeepest | reconstruct_json.py:57-61 | the scan ends on a name of greatest depth, with every earlier name strictly shallower |
| Reconstructor.GetDeepestObj | reconstruct_json.py:54-62 | `get_deepest_obj` fails with IndexError exactly on an empty list; otherwise it returns a name of greatest depth, every earlier name being strictly shallower |
| Reconstructor.DeepestOfTwo | reconstruct_json.py:54-62 | of two names the deeper wins, and the first on a tie |
| Reconstructor.AttributeName | reconstruct_json.py:64-68 | the attribute holds no `_` and is the stretch that ends the name, plus `s` when the collection has more than one record; `AttributeOfChild` gives it for names the flattener builds |
| Reconstructor.AttributeOfChild | reconstruct_json.py:64-68 | for a name built from a `_`-free key, the attribute is that key, plus `s` exactly when there is more than one record |
| Reconstructor.AttributeOfOnePiece | reconstruct_json.py:64-68 | a name without `_` is its own attribute name, plus `s` exactly when there is more than one record |
| ReconstructExamples.ChildNameParses | flatten_json.py:97-100 | a name the flattener builds from a `_`-free key reads back as the reconstructor expects: one piece deeper, the current name as its parent path, and the key as its attribute |
| Reconstructor.GetParentFilename | reconstruct_json.py:70-74 | what it returns is one of the remaining keys, and its only failure is the unbounded recursion at "" (NoParent); `ParentFound` and `ParentIsLongestPresentAncestor` say which key |
| Reconstructor.ParentFound | reconstruct_json.py:70-74 | `get_parent_filename` succeeds exactly when some proper ancestor of the name, down to "", is a remaining key |
| Reconstructor.ParentIsLongestPresentAncestor | reconstruct_json.py:70-74 | what it returns is a present proper ancestor, and no longer proper ancestor is present |
| Reconstructor.AncestorsLift | reconstruct_json.py:72-73 | when the parent path is absent, the name has a present proper ancestor exactly when its parent path has one |
| Reconstructor.LongestLifts | reconstruct_json.py:72-73 | when the parent path is absent, the longest present proper ancestor of the parent path is the name's too |
| Reconstructor.OnePieceHasNoParent | reconstruct_json.py:70-74 | a one-piece name without "" among the keys has no parent: the Python recursion never ends |
| Reconstructor.ParentStep | reconstruct_json.py:72-73 | an absent parent path sends the search one level up, and the remaining ancestors are the same |
| Reconstructor.CleanRecord | reconstruct_json.py:78-80 | raises KeyError('id') exactly on a record without `id`; otherwise drops exactly `id` and `__index` and keeps every other field |
| Reconstructor.CleanObj | reconstruct_json.py:76-81 | `clean_obj` keeps the number of records and fails only with KeyError('id'); `CleanObjSpec` gives when and what it returns |
| Reconstructor.CleanObjSpec | reconstruct_json.py:76-81 | `clean_obj` succeeds exactly when every record has an `id`; then it keeps the order and cleans each record |
| Reconstructor.NoLinkageLeft | reconstruct_json.py:76-81 | no record returned by `clean_obj` has `id` or `__index` |
| Reconstructor.Objects | reconstruct_json.py:107 | the child list goes in as a JSON array of the same records in the same order |
| Reconstructor.ZipFrom | reconstruct_json.py:109-110 | the zip loop keeps the parent's length and leaves the records before its position alone; `ZipSpec` gives each record |
| Reconstructor.ZipSpec | reconstruct_json.py:109-110 | child record i is set under the attribute on parent record i; parent records beyond the child list are untouched |
| Reconstructor.Merge | reconstruct_json.py:106-110 | the merge fails exactly on an empty parent below a non-empty child and otherwise keeps the parent's length; `MergeSpec` gives each record |
| Reconstructor.MergeSpec | reconstruct_json.py:106-110 | fails exactly on an empty parent below a non-empty child; a longer child goes whole onto the parent's last record; otherwise positional; the parent length is kept |
| Reconstructor.LoopBody | reconstruct_json.py:95-111 | a successful pass deletes exactly the chosen child, leaves one collection fewer, keeps the dict proper, and changes no collection other than child and parent; `PassSucceedsExactly` gives when it fails and with which error |
| Reconstructor.FoldInto | reconstruct_json.py:100-111 | once child and parent are chosen, the pass succeeds exactly when the parent is present, every child record has an `id` and the merge succeeds; the parent then holds the merge of its records with the cleaned child records, the child is gone, and no other collection changes |
| Reconstructor.PassChoosesAndMerges | reconstruct_json.py:95-111 | a successful pass snapshots the names in order, takes the first name of greatest depth as child and its longest proper ancestor among the names as parent, and leaves the parent holding the merge of its records with the cleaned child records |
| Reconstructor.PassSucceedsExactly | reconstruct_json.py:95-111 | the first deepest name is always present, so a pass succeeds exactly when that child finds a parent and folding it in succeeds; a missing parent is NoParent(""), a failed fold passes its error on, and a success is the fold's result with the snapshot, child and parent |
| Reconstructor.Loop | reconstruct_json.py:94-111 | the loop leaves at most one collection alone; once it has run it stops at exactly one, holding a snapshot of at least two names, and the dict stays proper; a failing first pass is the loop's failure, with the same error |
| Reconstructor.ReconstructJson | reconstruct_json.py:92-117 | at most one input collection leaves `remaining_keys` unbound; with more, a failing loop is its failure with the same error, and it succeeds exactly when the loop does and the last snapshot's first name is the survivor, giving that name plus `s` with the survivor's records; otherwise `pop` raises KeyError on that name |
| Reconstructor.RenameSurvivor | reconstruct_json.py:92-117 | the corrected rename succeeds exactly when the loop gets through a non-empty input, giving one collection with the survivor's records, and agrees with `reconstruct_json` wherever that succeeds |
| ReconstructExamples.ParentFirstRebuilds | reconstruct_json.py:94-117 | parent listed first: the child record, without its id, lands under the key on the parent record, and the parent collection is renamed with `s` |
| ReconstructExamples.ChildFirstLosesResult | reconstruct_json.py:94-117 | child listed first: the same merge happens, but the rename raises KeyError on the deleted child; the corrected rename succeeds |
| ReconstructExamples.TopLevelPairHasNoParent | reconstruct_json.py:94-104 | two one-piece collections: the first is taken as the child and the parent search ends in NoParent |
| ReconstructExamples.EmptyListOpensUnnamedCollection | flatten_json.py:112-119 | an empty-list member `s` of the root object yields the collection "" with no records; `clean` keeps it; and a one-piece name then finds "" as its parent |
| Handler.Truthy | api/backend/lambda_function.py:285 | Python truthiness: false exactly for null, false, 0, "", [] and {} |
| Handler.Handle | api/backend/lambda_function.py:285-287 | a falsy document is rejected; otherwise the result is the flatten failure or a cleaned collection set |
| Handler.HandleOutput | api/backend/lambda_function.py:285-287 | the handler's output is well formed, holds no degenerate record, and is unchanged by a second `clean` |
| Handler.HandleEvent | api/backend/lambda_function.py:285-287 | running the source's `clean` loop on the flatten result gives `Handle`, and a well-formed set |

## Left out

- Command-line parsing (`get_filename`, `get_directory`): argparse wrappers.
- File, network, storage and archive code. This covers `read_data`, `write_to_files`, `load_file`, `load_all_files`, `write_to_file`, `parse_request_for_url`, `download_json_from_url`, `save_to_s3`, `generate_html`, `generate_response`, and the rest of `lambda_handler`. All of it is library I/O.
- JSON text decoding. Documents start as decoded values. The handler's `dev` path, which passes the raw body string, is not modelled.
- api/frontend/scripts.js: the browser user interface.
- `reconstruct_json_old`: dead code that cannot run.
- The debug `print` calls in `reconstruct_json`.
- Floating-point numbers: JSON numbers are opaque integers.
- Python object identity. The model uses values.
  - In the reconstructor, child and parent lists alias the same dicts only when a name is its own parent (the name ""). That collection is deleted anyway, so the values agree.
  - `list.remove` compares dicts order-independently, while the model compares entry sequences. Only a degenerate record is removed, and any dict equal to it is degenerate too, so both remove the same record.
- Objects with repeated member keys. A JSON object is an association list (`Json.Obj`), which can repeat a key. A dict Python decodes never does. `Flatten` and its lemmas do not exclude such documents. For them, the width `|sub|` that `OpenRecord` tests counts repeated keys, where `len(val)` would not. No document decoded by Python reaches that case.
- Python's arbitrary-precision integers need no wrap-around. Dafny's are unbounded as well.
- An end-to-end flatten-then-reconstruct round trip is not claimed: the code does not provide one (see above).
- Flattener.FlattenValue: its own contract states only that collection names are kept. What each branch writes is in the lemmas named in the table.
- Flattener.FlattenFields: as for FlattenValue.
- Flattener.FlattenMember: as for FlattenValue.
- Flattener.FlattenItems: as for FlattenValue.
- Flattener.FlattenItem: as for FlattenValue.
- FlattenExamples.InheritedIdIsNotReplaced: the id-inheritance rule is proved on a three-level example with symbolic values, not for all documents.
- Reconstructor.GetParentFilename: the endless recursion is cut off as NoParent when the name is "" and "" is not a key. It is not modelled as non-termination.
- Reconstructor.ReconstructJson: requires the input to be a proper dict (no duplicate names). Every Python dict is one.

## Findings

| source | as written | input that shows it | evidently intended | confidence | as-written member | corrected member |
|---|---|---|---|---|---|---|
| reconstruct_json.py:113-115 | the collection to rename is `remaining_keys[0]` from the last pass's snapshot, which may be the child that pass just deleted | `{"a_b": [{"id": 1}], "a": [{}]}`: the last pass deletes `a_b`, then `pop('a_b')` raises KeyError | rename the one collection left: the loop runs until a single key remains, and lines 113-115 rename `parent_key` | medium, not executed | ReconstructExamples.ChildFirstLosesResult | Reconstructor.RenameSurvivor |

=== FILE: Cleaner.dfy ===
/**
  `clean(result)` (flatten_json.py, duplicated in
  api/backend/lambda_function.py): drop every record that carries no data
  of its own, and drop a collection that lost records and ended up empty.
 */
module Cleaner {
  import opened Dicts
  import opened Json

  /** A record with no data of its own: fewer than two keys, or exactly the
      bookkeeping keys "id" and "__index". `len(obj)` counts distinct keys. */
  predicate Degenerate(r: Record)
  {
    |Keys(r)| < 2 || Keys(r) == {"id", "__index"}
  }

  /** A record holding nothing but linkage fields is degenerate, and a
      record with more than two keys never is. */
  lemma LinkageOnlyIsDegenerate(r: Record)
    ensures Keys(r) <= {"id", "__index"} ==> Degenerate(r)
    ensures |Keys(r)| > 2 ==> !Degenerate(r)
  {
    var ks := Keys(r);
    if ks <= {"id", "__index"} {
      if "id" !in ks {
        assert ks == {} || ks == {"__index"};
      } else if "__index" !in ks {
        assert ks == {"id"};
      }
    }
  }

  /** No record of the list is degenerate. */
  ghost predicate AllData(recs: seq<Record>)
  {
    forall j :: 0 <= j < |recs| ==> !Degenerate(recs[j])
  }

  /** The records that survive cleaning, in their original order: none of
      them degenerate, and all of them when none is. */
  function Keep(recs: seq<Record>): (r: seq<Record>)
    ensures |r| <= |recs|
    ensures AllData(r)
  {
    if |recs| == 0 then []
    else (if Degenerate(recs[0]) then [] else [recs[0]]) + Keep(recs[1..])
  }

  /** A record survives exactly when it is present and not degenerate. */
  lemma {:induction false} KeepMembers(recs: seq<Record>, x: Record)
    ensures x in Keep(recs) <==> x in recs && !Degenerate(x)
  {
    if |recs| > 0 {
      KeepMembers(recs[1..], x);
      assert recs == [recs[0]] + recs[1..];
    }
  }

  /** Cleaning works element by element, so it keeps the relative order of
      the survivors. */
  lemma {:induction false} KeepAppend(a: seq<Record>, b: seq<Record>)
    ensures Keep(a + b) == Keep(a) + Keep(b)
  {
    if |a| > 0 {
      assert (a + b)[1..] == a[1..] + b;
      KeepAppend(a[1..], b);
    } else {
      assert a + b == b;
    }
  }

  /** Cleaning loses something exactly when some record is degenerate. */
  lemma {:induction false} KeepShrinks(recs: seq<Record>)
    ensures |Keep(recs)| <= |recs|
    ensures |Keep(recs)| < |recs| <==> exists j :: 0 <= j < |recs| && Degenerate(recs[j])
  {
    if |recs| > 0 {
      KeepShrinks(recs[1..]);
      if Degenerate(recs[0]) {
        assert 0 <= 0 < |recs| && Degenerate(recs[0]);
      } else if exists j :: 0 <= j < |recs| && Degenerate(recs[j]) {
        var j :| 0 <= j < |recs| && Degenerate(recs[j]);
        assert recs[1..][j - 1] == recs[j];
      } else {
        forall j | 0 <= j < |recs| - 1
          ensures !Degenerate(recs[1..][j])
        {
          assert recs[1..][j] == recs[j + 1];
        }
      }
    }
  }

  /** Cleaning a second time changes nothing. */
  lemma {:induction false} KeepIdempotent(recs: seq<Record>)
    ensures Keep(Keep(recs)) == Keep(recs)
  {
    if |recs| > 0 {
      KeepIdempotent(recs[1..]);
      var head := if Degenerate(recs[0]) then [] else [recs[0]];
      KeepAppend(head, Keep(recs[1..]));
      assert Keep(head) == head by {
        if head != [] {
          assert head[1..] == [];
        }
      }
    }
  }

  /** `list.remove(obj)`: drop the first element equal to `obj`; None where
      Python raises ValueError. */
  function RemoveFirst(s: seq<Record>, obj: Record): (r: Option<seq<Record>>)
    ensures r.Some? <==> obj in s
    ensures r.Some? ==> |r.value| == |s| - 1
  {
    if |s| == 0 then None
    else if s[0] == obj then Some(s[1..])
    else match RemoveFirst(s[1..], obj)
      case None => None
      case Some(t) => Some([s[0]] + t)
  }

  /** Removing an element that first occurs at the head of `b` leaves `a`
      in front untouched. */
  lemma {:induction false} RemoveFirstAfter(a: seq<Record>, b: seq<Record>, obj: Record)
    requires obj !in a && |b| > 0 && b[0] == obj
    ensures RemoveFirst(a + b, obj) == Some(a + b[1..])
  {
    if |a| == 0 {
      assert a + b == b && a + b[1..] == b[1..];
    } else {
      assert (a + b)[1..] == a[1..] + b;
      RemoveFirstAfter(a[1..], b, obj);
      assert [a[0]] + (a[1..] + b[1..]) == a + b[1..];
    }
  }

  /** The record loop of `clean` as written: walk a copy of the list and
      `remove` every degenerate record from the live one. Each removal
      takes the first equal record, which is the one being visited, since
      the records before it are all survivors. Also reports whether
      anything was removed (`check_array_length`). */
  method CleanRecords(recs: seq<Record>) returns (kept: seq<Record>, removed: bool)
    ensures kept == Keep(recs)
    ensures removed <==> exists j :: 0 <= j < |recs| && Degenerate(recs[j])
    ensures removed <==> |kept| < |recs|
  {
    kept := recs;
    removed := false;
    var i := 0;
    while i < |recs|
      invariant 0 <= i <= |recs|
      invariant kept == Keep(recs[..i]) + recs[i..]
      invariant removed <==> |Keep(recs[..i])| < i
    {
      CleanStep(recs, i);
      KeepShrinks(recs[..i]);
      if Degenerate(recs[i]) {
        kept := RemoveFirst(kept, recs[i]).value;
        removed := true;
      }
      i := i + 1;
    }
    assert recs[..i] == recs;
    KeepShrinks(recs);
  }

  /** One pass of the record loop, as an equation between loop states. */
  lemma CleanStep(recs: seq<Record>, i: nat)
    requires i < |recs|
    ensures Degenerate(recs[i]) ==>
              RemoveFirst(Keep(recs[..i]) + recs[i..], recs[i]) == Some(Keep(recs[..i + 1]) + recs[i + 1..])
    ensures !Degenerate(recs[i]) ==> Keep(recs[..i]) + recs[i..] == Keep(recs[..i + 1]) + recs[i + 1..]
    ensures |Keep(recs[..i + 1])| == |Keep(recs[..i])| + if Degenerate(recs[i]) then 0 else 1
  {
    var obj := recs[i];
    KeepAppend(recs[..i], [obj]);
    assert recs[..i + 1] == recs[..i] + [obj];
    assert recs[i..] == [obj] + recs[i + 1..];
    if Degenerate(obj) {
      KeepMembers(recs[..i], obj);
      RemoveFirstAfter(Keep(recs[..i]), recs[i..], obj);
      assert Keep([obj]) == [];
      assert Keep(recs[..i]) + [] == Keep(recs[..i]);
    } else {
      assert Keep([obj]) == [obj];
    }
  }

  /** `clean(result)`: every collection keeps its surviving records; one
      that had records, lost some and is now empty is deleted. A
      collection that was empty to begin with stays. */
  function Clean(cs: Collections): (r: Collections)
    ensures |r| <= |cs|
  {
    if |cs| == 0 then []
    else
      var kept := Keep(cs[0].1);
      var rest := Clean(cs[1..]);
      if |kept| < |cs[0].1| && |kept| == 0 then rest else [(cs[0].0, kept)] + rest
  }

  /** Cleaning works collection by collection. */
  lemma {:induction false} CleanAppend(a: Collections, b: Collections)
    ensures Clean(a + b) == Clean(a) + Clean(b)
  {
    if |a| == 0 {
      assert a + b == b;
    } else {
      assert (a + b)[0] == a[0] && (a + b)[1..] == a[1..] + b;
      CleanAppend(a[1..], b);
      if !(|Keep(a[0].1)| < |a[0].1| && |Keep(a[0].1)| == 0) {
        Regroup([(a[0].0, Keep(a[0].1))] + Clean(a[1..]), Clean(b));
      }
    }
  }

  /** The outer loop of `clean` as written: for each name, in order, run the
      record loop on its list, store the result, and delete the name when
      the record loop removed something and nothing is left. */
  method CleanAll(cs: Collections) returns (r: Collections)
    requires Keyed(cs)
    ensures r == Clean(cs)
  {
    r := cs;
    var i := 0;
    while i < |cs|
      invariant 0 <= i <= |cs|
      invariant r == Clean(cs[..i]) + cs[i..]
    {
      var name := cs[i].0;
      CleanAllStep(cs, i);
      var kept, removed := CleanRecords(Get(r, name).value);
      KeepShrinks(cs[i].1);
      r := Set(r, name, kept);
      if removed && |kept| == 0 {
        r := Remove(r, name);
      }
      i := i + 1;
    }
    CleanAllDone(cs);
  }

  /** The outer loop's state once every name is done. */
  lemma CleanAllDone(cs: Collections)
    ensures Clean(cs[..|cs|]) + cs[|cs|..] == Clean(cs)
  {
    assert cs[..|cs|] == cs;
    assert Clean(cs) + [] == Clean(cs);
  }

  /** One pass of the outer loop, as equations between loop states. */
  lemma CleanAllStep(cs: Collections, i: nat)
    requires Keyed(cs) && i < |cs|
    ensures Get(Clean(cs[..i]) + cs[i..], cs[i].0) == Some(cs[i].1)
    ensures !Dropped(cs[i].1) ==>
              Set(Clean(cs[..i]) + cs[i..], cs[i].0, Keep(cs[i].1)) == Clean(cs[..i + 1]) + cs[i + 1..]
    ensures Dropped(cs[i].1) ==>
              Remove(Set(Clean(cs[..i]) + cs[i..], cs[i].0, Keep(cs[i].1)), cs[i].0)
              == Clean(cs[..i + 1]) + cs[i + 1..]
  {
    var (name, recs) := cs[i];
    var p := Clean(cs[..i]);
    KeyedAt(cs, i);
    CleanKeys(cs[..i]);
    SliceHead(cs, i);
    ReplaceEntry(p, cs[i], cs[i + 1..], Keep(recs));
    CleanPrefix(cs, i);
    Assoc(p, [(name, Keep(recs))], cs[i + 1..]);
  }

  /** Cleaning one more collection of the prefix. */
  lemma CleanPrefix(cs: Collections, i: nat)
    requires i < |cs|
    ensures Dropped(cs[i].1) ==> Clean(cs[..i + 1]) == Clean(cs[..i])
    ensures !Dropped(cs[i].1) ==> Clean(cs[..i + 1]) == Clean(cs[..i]) + [(cs[i].0, Keep(cs[i].1))]
  {
    assert cs[..i + 1] == cs[..i] + [cs[i]];
    CleanAppend(cs[..i], [cs[i]]);
    KeepShrinks(cs[i].1);
    assert Clean([cs[i]][1..]) == [];
    assert Clean(cs[..i]) + [] == Clean(cs[..i]);
  }

  /** A collection is dropped exactly when it had records and all of them
      were degenerate. */
  predicate Dropped(recs: seq<Record>)
  {
    |recs| > 0 && Keep(recs) == []
  }

  /** What `clean` leaves of each collection of a proper dict: a surviving
      name maps to its cleaned records, and a name disappears exactly when
      all of its (at least one) records were degenerate. */
  lemma {:induction false} CleanGet(cs: Collections, name: string)
    requires Keyed(cs)
    ensures name in Keys(Clean(cs)) <==> name in Keys(cs) && !Dropped(Get(cs, name).value)
    ensures name in Keys(Clean(cs)) ==> Get(Clean(cs), name) == Some(Keep(Get(cs, name).value))
  {
    if |cs| > 0 {
      CleanGet(cs[1..], name);
      CleanKeys(cs[1..]);
      KeepShrinks(cs[0].1);
    }
  }

  /** `clean` keeps the names it does not drop, in order, and invents none. */
  lemma {:induction false} CleanKeys(cs: Collections)
    ensures Keys(Clean(cs)) <= Keys(cs)
    ensures Keyed(cs) ==> Keyed(Clean(cs))
  {
    if |cs| > 0 {
      CleanKeys(cs[1..]);
    }
  }

  /** No record that survives `clean` is degenerate. */
  lemma {:induction false} CleanLeavesData(cs: Collections, name: string, x: Record)
    requires name in Keys(Clean(cs))
    requires x in Get(Clean(cs), name).value
    ensures !Degenerate(x)
  {
    if |cs| > 0 {
      var kept := Keep(cs[0].1);
      if (|kept| < |cs[0].1| && |kept| == 0) || cs[0].0 != name {
        CleanLeavesData(cs[1..], name, x);
      } else {
        KeepMembers(cs[0].1, x);
      }
    }
  }

  /** `clean` keeps a well-formed collection set well formed. */
  lemma {:induction false} CleanWellFormed(cs: Collections)
    requires WellFormed(cs)
    ensures WellFormed(Clean(cs))
  {
    CleanKeys(cs);
    CleanRecordsKeyed(cs);
  }

  /** Every record `clean` keeps was a record of the input. */
  lemma {:induction false} CleanRecordsKeyed(cs: Collections)
    requires RecordsKeyed(cs)
    ensures RecordsKeyed(Clean(cs))
  {
    if |cs| > 0 {
      CleanRecordsKeyed(cs[1..]);
      var kept := Keep(cs[0].1);
      forall x | x in kept
        ensures Keyed(x)
      {
        KeepMembers(cs[0].1, x);
      }
      var r := Clean(cs);
      if !(|kept| < |cs[0].1| && |kept| == 0) {
        assert r[0].1 == kept && r[1..] == Clean(cs[1..]);
      }
    }
  }

  /** Cleaning a second time changes nothing. */
  lemma {:induction false} CleanIdempotent(cs: Collections)
    ensures Clean(Clean(cs)) == Clean(cs)
  {
    if |cs| > 0 {
      CleanIdempotent(cs[1..]);
      var kept := Keep(cs[0].1);
      KeepIdempotent(cs[0].1);
      if !(|kept| < |cs[0].1| && |kept| == 0) {
        var r := Clean(cs);
        assert r[0] == (cs[0].0, kept) && r[1..] == Clean(cs[1..]);
        KeepShrinks(kept);
      }
    }
  }
}

=== FILE: Dicts.dfy ===
/**
  A Python `dict` with string keys, modelled as an association list kept in
  insertion order. Lookup and assignment act on the first entry with a given
  key; deletion removes every entry with that key. Every dict Python builds
  is `Keyed` (no key appears twice), and every operation here preserves that.
 */
module Dicts {

  datatype Option<+T> = None | Some(value: T)

  type Dict<V> = seq<(string, V)>

  /** The set of keys, `d.keys()` as a set. */
  function Keys<V>(d: Dict<V>): set<string>
  {
    if |d| == 0 then {} else {d[0].0} + Keys(d[1..])
  }

  /** The keys in insertion order, `list(d.keys())`. */
  function KeyList<V>(d: Dict<V>): (ks: seq<string>)
    ensures |ks| == |d|
    ensures forall i :: 0 <= i < |d| ==> ks[i] == d[i].0
  {
    if |d| == 0 then [] else [d[0].0] + KeyList(d[1..])
  }

  /** No key occurs twice. */
  predicate Keyed<V>(d: Dict<V>)
  {
    |d| == 0 || (d[0].0 !in Keys(d[1..]) && Keyed(d[1..]))
  }

  /** `d[k]`, or None where Python raises KeyError. */
  function Get<V>(d: Dict<V>, k: string): (r: Option<V>)
    ensures r.Some? <==> k in Keys(d)
    ensures r.Some? ==> (k, r.value) in d
  {
    if |d| == 0 then None
    else if d[0].0 == k then Some(d[0].1)
    else Get(d[1..], k)
  }

  /** `d[k] = v`: overwrites in place when `k` is present, appends otherwise. */
  function Set<V>(d: Dict<V>, k: string, v: V): (r: Dict<V>)
    ensures Get(r, k) == Some(v)
    ensures forall k' :: k' != k ==> Get(r, k') == Get(d, k')
    ensures Keys(r) == Keys(d) + {k}
    ensures |r| == if k in Keys(d) then |d| else |d| + 1
    ensures Keyed(d) ==> Keyed(r)
    ensures forall e :: e in r ==> e in d || e == (k, v)
  {
    if |d| == 0 then [(k, v)]
    else if d[0].0 == k then [(k, v)] + d[1..]
    else [d[0]] + Set(d[1..], k, v)
  }

  /** Assignment keeps the key order; a new key goes last. */
  lemma {:induction false} SetKeyList<V>(d: Dict<V>, k: string, v: V)
    ensures k in Keys(d) ==> KeyList(Set(d, k, v)) == KeyList(d)
    ensures k !in Keys(d) ==> KeyList(Set(d, k, v)) == KeyList(d) + [k]
  {
    if |d| > 0 && d[0].0 != k {
      SetKeyList(d[1..], k, v);
    }
  }

  /** `del d[k]` where `k` is present; leaves `d` as it is otherwise. */
  function Remove<V>(d: Dict<V>, k: string): (r: Dict<V>)
    ensures Keys(r) == Keys(d) - {k}
    ensures forall k' :: k' != k ==> Get(r, k') == Get(d, k')
    ensures Keyed(d) ==> Keyed(r)
    ensures Keyed(d) && k in Keys(d) ==> |r| == |d| - 1
    ensures k !in Keys(d) ==> r == d
    ensures forall e :: e in r ==> e in d
  {
    if |d| == 0 then []
    else if d[0].0 == k then Remove(d[1..], k)
    else [d[0]] + Remove(d[1..], k)
  }

  /** In a Keyed dict, an entry is what lookup returns for its key. */
  lemma {:induction false} GetOfEntry<V>(d: Dict<V>, k: string, v: V)
    requires Keyed(d)
    requires (k, v) in d
    ensures Get(d, k) == Some(v)
  {
    if d[0] != (k, v) {
      assert (k, v) in d[1..];
      GetOfEntry(d[1..], k, v);
    }
  }

  /** The key of every entry is a key of the dict. */
  lemma {:induction false} KeyOfEntry<V>(d: Dict<V>, i: nat)
    requires i < |d|
    ensures d[i].0 in Keys(d)
  {
    if i > 0 {
      KeyOfEntry(d[1..], i - 1);
    }
  }

  /** A Keyed dict has exactly as many entries as keys: `len(d)`. */
  lemma {:induction false} KeyedSize<V>(d: Dict<V>)
    requires Keyed(d)
    ensures |Keys(d)| == |d|
  {
    if |d| > 0 {
      KeyedSize(d[1..]);
    }
  }

  /** Moving the head of `b` onto the end of `a` leaves the concatenation alone. */
  lemma AppendHead<T>(a: seq<T>, b: seq<T>)
    requires |b| > 0
    ensures a + [b[0]] + b[1..] == a + b
  {
    assert b == [b[0]] + b[1..];
  }

  /** A suffix is its first element followed by the rest. */
  lemma SliceHead<T>(s: seq<T>, i: nat)
    requires i < |s|
    ensures s[i..] == [s[i]] + s[i + 1..]
  {
  }

  /** Concatenation is associative. */
  lemma Assoc<T>(a: seq<T>, b: seq<T>, c: seq<T>)
    ensures a + (b + c) == (a + b) + c
  {
  }

  /** Putting the head of `a` back in front. */
  lemma Regroup<T>(a: seq<T>, c: seq<T>)
    requires |a| > 0
    ensures [a[0]] + (a[1..] + c) == a + c
  {
    assert a == [a[0]] + a[1..];
  }

  /** The keys of a dict with one more entry at the end. */
  lemma {:induction false} KeysAppend<V>(d: Dict<V>, k: string, v: V)
    ensures Keys(d + [(k, v)]) == Keys(d) + {k}
  {
    if |d| > 0 {
      assert (d + [(k, v)])[1..] == d[1..] + [(k, v)];
      KeysAppend(d[1..], k, v);
    }
  }

  /** Assigning a new key appends it after all existing keys. */
  lemma {:induction false} SetNew<V>(d: Dict<V>, k: string, v: V)
    requires k !in Keys(d)
    ensures Set(d, k, v) == d + [(k, v)]
  {
    if |d| > 0 {
      assert d[0].0 != k && k !in Keys(d[1..]);
      SetNew(d[1..], k, v);
      assert [d[0]] + (d[1..] + [(k, v)]) == d + [(k, v)];
    }
  }

  /** Assigning a key the value it already holds changes nothing. */
  lemma {:induction false} SetSame<V>(d: Dict<V>, k: string, v: V)
    requires Get(d, k) == Some(v)
    ensures Set(d, k, v) == d
  {
    if d[0].0 != k {
      SetSame(d[1..], k, v);
      assert [d[0]] + d[1..] == d;
    } else {
      assert [(k, v)] + d[1..] == d;
    }
  }

  /** Of two assignments to one key, only the second is seen. */
  lemma {:induction false} SetSet<V>(d: Dict<V>, k: string, v: V, w: V)
    ensures Set(Set(d, k, v), k, w) == Set(d, k, w)
  {
    if |d| > 0 && d[0].0 != k {
      var e := [d[0]] + Set(d[1..], k, v);
      assert e[0] == d[0] && e[1..] == Set(d[1..], k, v);
      SetSet(d[1..], k, v, w);
    } else if |d| > 0 {
      assert ([(k, v)] + d[1..])[1..] == d[1..];
    }
  }

  /** Lookup of a key that only the last entry holds. */
  lemma {:induction false} GetLast<V>(d: Dict<V>, k: string, v: V)
    requires k !in Keys(d)
    ensures Get(d + [(k, v)], k) == Some(v)
  {
    if |d| > 0 {
      assert (d + [(k, v)])[1..] == d[1..] + [(k, v)];
      GetLast(d[1..], k, v);
    }
  }

  /** Reassigning a key that only the last entry holds replaces that entry. */
  lemma {:induction false} SetLast<V>(d: Dict<V>, k: string, v: V, w: V)
    requires k !in Keys(d)
    ensures Set(d + [(k, v)], k, w) == d + [(k, w)]
  {
    if |d| > 0 {
      var e := d + [(k, v)];
      assert e[0] == d[0] && e[1..] == d[1..] + [(k, v)];
      assert e[0].0 != k && k !in Keys(d[1..]);
      SetLast(d[1..], k, v, w);
      calc {
        Set(e, k, w);
        [e[0]] + Set(e[1..], k, w);
        [d[0]] + (d[1..] + [(k, w)]);
        { assert [d[0]] + d[1..] == d; }
        d + [(k, w)];
      }
    }
  }

  /** The keys of a concatenation. */
  lemma {:induction false} KeysConcat<V>(a: Dict<V>, b: Dict<V>)
    ensures Keys(a + b) == Keys(a) + Keys(b)
  {
    if |a| == 0 {
      assert a + b == b;
    } else {
      assert (a + b)[1..] == a[1..] + b;
      KeysConcat(a[1..], b);
    }
  }

  /** In a Keyed dict, the key at position `i` occurs neither before nor
      after it. */
  lemma {:induction false} KeyedAt<V>(d: Dict<V>, i: nat)
    requires Keyed(d) && i < |d|
    ensures d[i].0 !in Keys(d[..i]) && d[i].0 !in Keys(d[i + 1..]) && Keyed(d[i + 1..])
  {
    if i > 0 {
      KeyedAt(d[1..], i - 1);
      assert d[1..][..i - 1] == d[1..i] && d[1..][i - 1] == d[i] && d[1..][i..] == d[i + 1..];
      assert d[..i] == [d[0]] + d[1..i];
      KeysConcat([d[0]], d[1..i]);
      KeysConcat([d[i]], d[i + 1..]);
      assert d[1..] == d[1..i] + ([d[i]] + d[i + 1..]);
      KeysConcat(d[1..i], [d[i]] + d[i + 1..]);
    }
  }

  /** Lookup of a key whose first entry opens `b`. */
  lemma {:induction false} GetAt<V>(a: Dict<V>, b: Dict<V>, k: string)
    requires k !in Keys(a) && |b| > 0 && b[0].0 == k
    ensures Get(a + b, k) == Some(b[0].1)
  {
    if |a| == 0 {
      assert a + b == b;
    } else {
      assert (a + b)[1..] == a[1..] + b;
      GetAt(a[1..], b, k);
    }
  }

  /** Assignment to a key whose first entry opens `b` replaces that entry. */
  lemma {:induction false} SetAt<V>(a: Dict<V>, b: Dict<V>, k: string, w: V)
    requires k !in Keys(a) && |b| > 0 && b[0].0 == k
    ensures Set(a + b, k, w) == a + ([(k, w)] + b[1..])
  {
    if |a| == 0 {
      assert a + b == b;
    } else {
      var e := a + b;
      assert e[0] == a[0] && e[1..] == a[1..] + b && a[0].0 != k;
      assert Set(e, k, w) == [a[0]] + Set(a[1..] + b, k, w);
      SetAt(a[1..], b, k, w);
      Regroup(a, [(k, w)] + b[1..]);
    }
  }

  /** Deleting a key whose only entry opens `b` removes just that entry. */
  lemma {:induction false} RemoveAt<V>(a: Dict<V>, b: Dict<V>, k: string)
    requires k !in Keys(a) && |b| > 0 && b[0].0 == k && k !in Keys(b[1..])
    ensures Remove(a + b, k) == a + b[1..]
  {
    if |a| == 0 {
      assert a + b == b && a + b[1..] == b[1..];
    } else {
      assert (a + b)[0] == a[0] && (a + b)[1..] == a[1..] + b;
      RemoveAt(a[1..], b, k);
      Regroup(a, b[1..]);
    }
  }

  /** Read, overwrite and delete the one entry of a key that occurs
      nowhere else. */
  lemma ReplaceEntry<V>(a: Dict<V>, e: (string, V), b: Dict<V>, w: V)
    requires e.0 !in Keys(a) && e.0 !in Keys(b)
    ensures Get(a + ([e] + b), e.0) == Some(e.1)
    ensures Set(a + ([e] + b), e.0, w) == a + ([(e.0, w)] + b)
    ensures Remove(a + ([(e.0, w)] + b), e.0) == a + b
  {
    assert ([e] + b)[1..] == b && ([(e.0, w)] + b)[1..] == b;
    GetAt(a, [e] + b, e.0);
    SetAt(a, [e] + b, e.0, w);
    RemoveAt(a, [(e.0, w)] + b, e.0);
  }

  /** `d[p] = w; del d[c]` on a proper dict holding both keys: one entry
      fewer, `c` gone, `p` holding `w` unless it was `c`, the rest kept. */
  lemma StoreThenDelete<V>(d: Dict<V>, p: string, w: V, c: string)
    requires Keyed(d) && p in Keys(d) && c in Keys(d)
    ensures Keyed(Remove(Set(d, p, w), c)) && |Remove(Set(d, p, w), c)| == |d| - 1
    ensures Keys(Remove(Set(d, p, w), c)) == Keys(d) - {c}
    ensures forall k :: k != c && k != p ==> Get(Remove(Set(d, p, w), c), k) == Get(d, k)
    ensures p != c ==> Get(Remove(Set(d, p, w), c), p) == Some(w)
  {
    var s := Set(d, p, w);
    assert Keyed(s) && |s| == |d| && c in Keys(s);
  }

  /** A dict of two distinct keys, as Python builds it from two assignments. */
  lemma Pair<V>(a: string, x: V, b: string, y: V)
    requires a != b
    ensures Keys([(a, x), (b, y)]) == {a, b} && Keyed([(a, x), (b, y)])
    ensures KeyList([(a, x), (b, y)]) == [a, b]
    ensures Get([(a, x), (b, y)], a) == Some(x) && Get([(a, x), (b, y)], b) == Some(y)
  {
    assert [(a, x), (b, y)][1..] == [(b, y)];
    assert [(b, y)][1..] == [];
    assert Keys([(b, y)]) == {b};
  }

  /** Overwriting one key of a pair and deleting the other leaves the one. */
  lemma SetThenRemove<V>(a: string, x: V, b: string, y: V, w: V)
    requires a != b
    ensures Remove(Set([(a, x), (b, y)], a, w), b) == [(a, w)]
    ensures Remove(Set([(b, y), (a, x)], a, w), b) == [(a, w)]
  {
    assert [(a, x), (b, y)][1..] == [(b, y)];
    assert [(b, y), (a, x)][1..] == [(a, x)];
    assert Set([(b, y), (a, x)], a, w) == [(b, y), (a, w)];
    assert [(b, y), (a, w)][1..] == [(a, w)];
    assert [(a, w), (b, y)][1..] == [(b, y)];
  }
}

=== FILE: FlattenExamples.dfy ===
/**
  Worked flattenings of small documents, each checked against the model.
  They pin down the behaviour the general lemmas leave open: which names
  the collections get, where the inherited id and "__index" go, and which
  documents make the flattener fail.
 */
module FlattenExamples {
  import opened Dicts
  import opened Json
  import opened Flattener

  /** A nested object with several fields becomes one record of its own
      collection, carrying the id of the document. */
  lemma IdReachesChild(x: Value, a: Value, b: Value)
    requires x.IsScalar() && x != Null && a.IsScalar() && b.IsScalar()
    ensures Flatten(Obj([("id", x), ("child", Obj([("a", a), ("b", b)]))]))
         == Ok([("output", [[("id", x)]]), ("child", [[("id", x), ("a", a), ("b", b)]])])
  {
    var doc := Obj([("id", x), ("child", Obj([("a", a), ("b", b)]))]);
    var r0 := [("id", x)];
    var s1 := [("output", [r0])];
    var r2 := [("id", x), ("a", a), ("b", b)];
    var s2 := s1 + [("child", [r2])];
    assert GetId(doc.fields) == x;
    FirstRootScalar(doc, x);
    ChildMember(s1, doc, x, a, b);
    FieldsForward(s1, doc, 1, 0, "", x, false);
    assert FlattenFields(s2, doc, 2, 0, "", x, false) == Ok(s2);
    assert s2 == [("output", [r0]), ("child", [r2])];
  }

  /** The member "child" of the example above, flattened after "output". */
  lemma ChildMember(s1: Collections, doc: Value, x: Value, a: Value, b: Value)
    requires x != Null && a.IsScalar() && b.IsScalar() && s1 == [("output", [[("id", x)]])]
    requires doc == Obj([("id", x), ("child", Obj([("a", a), ("b", b)]))])
    ensures FlattenMember(s1, doc, 1, 0, "", x, false) == Ok(s1 + [("child", [[("id", x), ("a", a), ("b", b)]])])
  {
    assert ChildName("", "child") == "child" && Keys(s1) == {"output"};
    assert ScalarObject(doc.fields[1].1);
    ScalarChildOpensRecord(s1, doc, 1, 0, "", x);
    RecordOfPair(x, "a", a, "b", b);
  }

  /** A root object whose first member is a scalar starts with that member
      as the only "output" record. */
  lemma FirstRootScalar(doc: Value, id: Value)
    requires doc.Obj? && |doc.fields| > 1 && doc.fields[0].1.IsScalar()
    requires id == GetId(doc.fields)
    ensures Flatten(doc) == FlattenFields([("output", [[doc.fields[0]]])], doc, 1, 0, "", id, false)
  {
    RootScalarMember([], doc, 0, 0, id, false);
    FieldsForward([], doc, 0, 0, "", id, false);
  }

  /** The record opened below the id `x` for an object of two scalars. */
  lemma RecordOfPair(x: Value, k1: string, a: Value, k2: string, b: Value)
    requires x != Null && k1 != k2 && k1 != "id" && k2 != "id"
    ensures SetAll(NewRecord(x), [(k1, a), (k2, b)]) == [("id", x), (k1, a), (k2, b)]
  {
    var r0 := [("id", x)];
    PairKeys(k1, a, k2, b);
    assert NewRecord(x) == r0 && Keys(r0) == {"id"};
    SetAllFresh(r0, [(k1, a), (k2, b)]);
    assert r0 + [(k1, a), (k2, b)] == [("id", x), (k1, a), (k2, b)];
  }

  /** The keys of a two-entry dict. */
  lemma PairKeys<V>(k1: string, v1: V, k2: string, v2: V)
    ensures Keys([(k1, v1), (k2, v2)]) == {k1, k2}
    ensures Keyed([(k1, v1), (k2, v2)]) <==> k1 != k2
  {
    var d := [(k1, v1), (k2, v2)];
    assert d[1..] == [(k2, v2)];
    assert d[1..][1..] == [];
    assert Keys(d[1..]) == {k2};
    assert Keyed(d[1..]);
  }

  /** A nested object with a single field opens no record, so its scalar
      has nowhere to go: the flattener fails on the missing collection. */
  lemma SingleFieldChildFails()
    ensures Flatten(Obj([("id", Str("X")), ("child", Obj([("y", Num(1))]))]))
         == Err(KeyError("child"))
  {
  }

  /** A later root member named "outputs" lists its elements into the
      "output" collection, after the one record of root scalars. */
  lemma OutputsJoinOutput()
    ensures Flatten(Obj([("a", Num(1)), ("outputs", Arr([Obj([("x", Num(1)), ("y", Num(2))])]))]))
         == Ok([("output", [[("a", Num(1))], [("x", Num(1)), ("y", Num(2))]])])
  {
    var rec := [("x", Num(1)), ("y", Num(2))];
    var doc := Obj([("a", Num(1)), ("outputs", Arr([Obj(rec)]))]);
    var s1 := [("output", [[("a", Num(1))]])];
    var s2 := [("output", [[("a", Num(1))], rec])];
    assert GetId(doc.fields) == Null;
    assert FlattenMember([], doc, 0, 0, "", Null, false) == Ok(s1);
    FieldsForward([], doc, 0, 0, "", Null, false);
    OutputsMember(s1, doc, rec, s2);
    FieldsForward(s1, doc, 1, 0, "", Null, false);
    assert FlattenFields(s2, doc, 2, 0, "", Null, false) == Ok(s2);
  }

  /** The "outputs" member of the example above, flattened after the root
      scalar. */
  lemma OutputsMember(s1: Collections, doc: Value, rec: Record, s2: Collections)
    requires rec == [("x", Num(1)), ("y", Num(2))]
    requires doc == Obj([("a", Num(1)), ("outputs", Arr([Obj(rec)]))])
    requires s1 == [("output", [[("a", Num(1))]])] && s2 == [("output", [[("a", Num(1))], rec])]
    ensures FlattenMember(s1, doc, 1, 0, "", Null, false) == Ok(s2)
  {
    var arr := doc.fields[1].1;
    var first := [[("a", Num(1))]];
    assert ListChildName("", "outputs") == "output";
    assert ScalarObject(arr.items[0]);
    ArrayJoinsCollection(s1, doc, 1, 0, "", Null, false, first);
    PairKeys("x", Num(1), "y", Num(2));
    SetAllFresh([], rec);
    assert ItemRecord(Null, 0, 1) == [] && ElementRecord(arr.items, Null, 0) == rec;
    assert IndexedRecords(arr.items, Null, 1) == [];
    assert IndexedRecords(arr.items, Null, 0) == [rec];
    assert first + [rec] == [[("a", Num(1))], rec];
    assert Set(s1, "output", first + [rec]) == s2;
  }

  /** Every scalar member of the root object resets "output": only the last
      one survives. */
  lemma RootScalarsOverwrite()
    ensures Flatten(Obj([("a", Num(1)), ("b", Num(2))])) == Ok([("output", [[("b", Num(2))]])])
  {
    var doc := Obj([("a", Num(1)), ("b", Num(2))]);
    var first := [("output", [[("a", Num(1))]])];
    assert GetId(doc.fields) == Null;
    assert FlattenMember([], doc, 0, 0, "", Null, false) == Ok(first);
    FieldsForward([], doc, 0, 0, "", Null, false);
    assert Set(first, "output", [Set([], "b", Num(2))]) == [("output", [[("b", Num(2))]])];
    assert FlattenMember(first, doc, 1, 0, "", Null, false) == Ok([("output", [[("b", Num(2))]])]);
    FieldsForward(first, doc, 1, 0, "", Null, false);
  }

  /** An array member "items" becomes the collection "item", one record per
      element, each with the id and its position as "__index". */
  lemma ArrayBecomesIndexedRecords(x: Value, a: Value, b: Value)
    requires x.IsScalar() && x != Null && a.IsScalar() && b.IsScalar()
    ensures Flatten(Obj([("id", x), ("items", Arr([Obj([("n", a)]), Obj([("n", b)])]))]))
         == Ok([("output", [[("id", x)]]),
                ("item", [[("id", x), ("__index", Str("0")), ("n", a)],
                          [("id", x), ("__index", Str("1")), ("n", b)]])])
  {
    var doc := Obj([("id", x), ("items", Arr([Obj([("n", a)]), Obj([("n", b)])]))]);
    var s1 := [("output", [[("id", x)]])];
    var recs := [[("id", x), ("__index", Str("0")), ("n", a)], [("id", x), ("__index", Str("1")), ("n", b)]];
    assert GetId(doc.fields) == x;
    FirstRootScalar(doc, x);
    assert [[doc.fields[0]]] == [[("id", x)]];
    ItemsMember(s1, doc, x, a, b);
    FieldsForward(s1, doc, 1, 0, "", x, false);
    assert FlattenFields(s1 + [("item", recs)], doc, 2, 0, "", x, false) == Ok(s1 + [("item", recs)]);
    assert s1 + [("item", recs)] == [("output", [[("id", x)]]), ("item", recs)];
  }

  /** The array member of the example above, flattened after "output". */
  lemma ItemsMember(s1: Collections, doc: Value, x: Value, a: Value, b: Value)
    requires x != Null && s1 == [("output", [[("id", x)]])]
    requires doc == Obj([("id", x), ("items", Arr([Obj([("n", a)]), Obj([("n", b)])]))])
    requires a.IsScalar() && b.IsScalar()
    ensures FlattenMember(s1, doc, 1, 0, "", x, false)
         == Ok(s1 + [("item", [[("id", x), ("__index", Str("0")), ("n", a)],
                               [("id", x), ("__index", Str("1")), ("n", b)]])])
  {
    assert ListChildName("", "items") == "item" && Keys(s1) == {"output"};
    assert ScalarObject(doc.fields[1].1.items[0]) && ScalarObject(doc.fields[1].1.items[1]);
    ScalarArrayMember(s1, doc, 1, 0, "", x, false);
    TwoIndexedRecords(doc.fields[1].1.items, x, a, b);
  }

  /** The records of a two-element array of one-member objects. */
  lemma TwoIndexedRecords(items: seq<Value>, x: Value, a: Value, b: Value)
    requires x != Null && items == [Obj([("n", a)]), Obj([("n", b)])]
    requires a.IsScalar() && b.IsScalar()
    ensures IndexedRecords(items, x, 0)
         == [[("id", x), ("__index", Str("0")), ("n", a)], [("id", x), ("__index", Str("1")), ("n", b)]]
  {
    var r0 := [("id", x), ("__index", Str("0")), ("n", a)];
    var r1 := [("id", x), ("__index", Str("1")), ("n", b)];
    TwoElements(items, x);
    assert ElementRecord(items, x, 0) == r0 by {
      SmallDecimals();
      IndexedRecord(x, 0, "n", a);
    }
    assert ElementRecord(items, x, 1) == r1 by {
      SmallDecimals();
      IndexedRecord(x, 1, "n", b);
    }
  }

  /** An array member of scalars "tags" becomes the collection "tag", one
      record per element, each holding its element under the empty key. */
  lemma ScalarArrayBecomesRecords(x: Value, a: Value, b: Value)
    requires x.IsScalar() && x != Null && a.IsScalar() && b.IsScalar()
    ensures Flatten(Obj([("id", x), ("tags", Arr([a, b]))]))
         == Ok([("output", [[("id", x)]]),
                ("tag", [[("id", x), ("__index", Str("0")), ("", a)],
                         [("id", x), ("__index", Str("1")), ("", b)]])])
  {
    var doc := Obj([("id", x), ("tags", Arr([a, b]))]);
    var s1 := [("output", [[("id", x)]])];
    var recs := [[("id", x), ("__index", Str("0")), ("", a)], [("id", x), ("__index", Str("1")), ("", b)]];
    assert GetId(doc.fields) == x;
    FirstRootScalar(doc, x);
    assert [[doc.fields[0]]] == [[("id", x)]];
    TagsMember(s1, doc, x, a, b);
    FieldsForward(s1, doc, 1, 0, "", x, false);
    assert FlattenFields(s1 + [("tag", recs)], doc, 2, 0, "", x, false) == Ok(s1 + [("tag", recs)]);
    assert s1 + [("tag", recs)] == [("output", [[("id", x)]]), ("tag", recs)];
  }

  /** The array member of the example above, flattened after "output". */
  lemma TagsMember(s1: Collections, doc: Value, x: Value, a: Value, b: Value)
    requires x != Null && s1 == [("output", [[("id", x)]])]
    requires doc == Obj([("id", x), ("tags", Arr([a, b]))])
    requires a.IsScalar() && b.IsScalar()
    ensures FlattenMember(s1, doc, 1, 0, "", x, false)
         == Ok(s1 + [("tag", [[("id", x), ("__index", Str("0")), ("", a)],
                              [("id", x), ("__index", Str("1")), ("", b)]])])
  {
    assert ListChildName("", "tags") == "tag" && Keys(s1) == {"output"};
    assert FlatElement(doc.fields[1].1.items[0]) && FlatElement(doc.fields[1].1.items[1]);
    ScalarArrayMember(s1, doc, 1, 0, "", x, false);
    TwoScalarRecords(doc.fields[1].1.items, x, a, b);
  }

  /** The records of a two-element array of scalars. */
  lemma TwoScalarRecords(items: seq<Value>, x: Value, a: Value, b: Value)
    requires x != Null && items == [a, b] && a.IsScalar() && b.IsScalar()
    ensures IndexedRecords(items, x, 0)
         == [[("id", x), ("__index", Str("0")), ("", a)], [("id", x), ("__index", Str("1")), ("", b)]]
  {
    var r0 := [("id", x), ("__index", Str("0")), ("", a)];
    var r1 := [("id", x), ("__index", Str("1")), ("", b)];
    TwoElements(items, x);
    assert ElementRecord(items, x, 0) == r0 by {
      SmallDecimals();
      IndexedScalar(x, 0, a);
    }
    assert ElementRecord(items, x, 1) == r1 by {
      SmallDecimals();
      IndexedScalar(x, 1, b);
    }
  }

  /** The record of element `i` of a two-element array holding the scalar
      `v`, below the id `x`. */
  lemma IndexedScalar(x: Value, i: nat, v: Value)
    requires x != Null && i < 2
    ensures Set(ItemRecord(x, i, 2), "", v) == [("id", x), ("__index", Str(Decimal(i))), ("", v)]
  {
    var r := [("id", x), ("__index", Str(Decimal(i)))];
    assert NewRecord(x) == [("id", x)];
    SetNew([("id", x)], "__index", Str(Decimal(i)));
    assert ItemRecord(x, i, 2) == r;
    PairKeys("id", x, "__index", Str(Decimal(i)));
    SetNew(r, "", v);
  }

  /** A two-element array gives the records of its two elements. */
  lemma TwoElements(items: seq<Value>, id: Value)
    requires |items| == 2
    ensures IndexedRecords(items, id, 0) == [ElementRecord(items, id, 0), ElementRecord(items, id, 1)]
  {
    assert IndexedRecords(items, id, 2) == [];
    assert IndexedRecords(items, id, 1) == [ElementRecord(items, id, 1)];
  }

  /** The positions of a two-element array as Python prints them. */
  lemma SmallDecimals()
    ensures Decimal(0) == "0" && Decimal(1) == "1"
  {
  }

  /** The record of element `i` of a two-element array holding one scalar
      member, below the id `x`. */
  lemma IndexedRecord(x: Value, i: nat, k: string, v: Value)
    requires x != Null && i < 2 && k != "id" && k != "__index"
    ensures SetAll(ItemRecord(x, i, 2), [(k, v)]) == [("id", x), ("__index", Str(Decimal(i))), (k, v)]
  {
    var r := [("id", x), ("__index", Str(Decimal(i)))];
    assert NewRecord(x) == [("id", x)];
    SetNew([("id", x)], "__index", Str(Decimal(i)));
    assert ItemRecord(x, i, 2) == r;
    PairKeys("id", x, "__index", Str(Decimal(i)));
    assert [(k, v)][1..] == [];
    assert Keys([(k, v)]) == {k};
    SetAllFresh(r, [(k, v)]);
  }

  /** The id found at the root is passed down unchanged: a nested object's
      own "id" is written as an ordinary field of its record but does not
      replace the id given to the records below it. */
  lemma InheritedIdIsNotReplaced(x: Value, y: Value, p: Value, q: Value)
    requires x.IsScalar() && x != Null && y.IsScalar() && p.IsScalar() && q.IsScalar()
    ensures Flatten(Obj([("id", x), ("c", Obj([("id", y), ("d", Obj([("p", p), ("q", q)]))]))]))
         == Ok([("output", [[("id", x)]]),
                ("c", [[("id", y)]]),
                ("c_d", [[("id", x), ("p", p), ("q", q)]])])
  {
    var doc := Obj([("id", x), ("c", Obj([("id", y), ("d", Obj([("p", p), ("q", q)]))]))]);
    var s1 := [("output", [[("id", x)]])];
    var s3 := s1 + [("c", [[("id", y)]]), ("c_d", [[("id", x), ("p", p), ("q", q)]])];
    assert GetId(doc.fields) == x;
    FirstRootScalar(doc, x);
    assert [[doc.fields[0]]] == [[("id", x)]];
    NestedMember(s1, doc, x, y, p, q);
    FieldsForward(s1, doc, 1, 0, "", x, false);
    assert FlattenFields(s3, doc, 2, 0, "", x, false) == Ok(s3);
    assert s3 == [("output", [[("id", x)]]), ("c", [[("id", y)]]), ("c_d", [[("id", x), ("p", p), ("q", q)]])];
  }

  /** The member "c" of the example above, flattened after "output". */
  lemma NestedMember(s1: Collections, doc: Value, x: Value, y: Value, p: Value, q: Value)
    requires x != Null && y.IsScalar() && p.IsScalar() && q.IsScalar() && s1 == [("output", [[("id", x)]])]
    requires doc == Obj([("id", x), ("c", Obj([("id", y), ("d", Obj([("p", p), ("q", q)]))]))])
    ensures FlattenMember(s1, doc, 1, 0, "", x, false)
         == Ok(s1 + [("c", [[("id", y)]]), ("c_d", [[("id", x), ("p", p), ("q", q)]])])
  {
    var c := doc.fields[1].1;
    assert ChildName("", "c") == "c" && Keys(s1) == {"output"};
    OpenNewRecord(s1, "c", 2, x, 0);
    assert NewRecord(x) == [("id", x)];
    NestedFields(s1, c, x, y, p, q);
  }

  /** The members of "c": its own id fills the record opened for it, and
      "d" opens a record of its own below the root's id. */
  lemma NestedFields(s1: Collections, c: Value, x: Value, y: Value, p: Value, q: Value)
    requires x != Null && y.IsScalar() && p.IsScalar() && q.IsScalar() && s1 == [("output", [[("id", x)]])]
    requires c == Obj([("id", y), ("d", Obj([("p", p), ("q", q)]))])
    ensures FlattenFields(s1 + [("c", [[("id", x)]])], c, 0, 0, "c", x, false)
         == Ok(s1 + [("c", [[("id", y)]]), ("c_d", [[("id", x), ("p", p), ("q", q)]])])
  {
    var s2 := s1 + [("c", [[("id", y)]])];
    var s3 := s2 + [("c_d", [[("id", x), ("p", p), ("q", q)]])];
    OwnIdFillsRecord(s1, c, x, y);
    FieldsForward(s1 + [("c", [[("id", x)]])], c, 0, 0, "c", x, false);
    GrandchildRecord(s1, c, x, y, p, q);
    FieldsForward(s2, c, 1, 0, "c", x, false);
    assert FlattenFields(s3, c, 2, 0, "c", x, false) == Ok(s3);
    assert s3 == s1 + [("c", [[("id", y)]]), ("c_d", [[("id", x), ("p", p), ("q", q)]])];
  }

  /** The scalar "id" of "c" overwrites the inherited id in its record. */
  lemma OwnIdFillsRecord(s1: Collections, c: Value, x: Value, y: Value)
    requires y.IsScalar() && s1 == [("output", [[("id", x)]])]
    requires c.Obj? && |c.fields| == 2 && c.fields[0] == ("id", y)
    ensures FlattenMember(s1 + [("c", [[("id", x)]])], c, 0, 0, "c", x, false)
         == Ok(s1 + [("c", [[("id", y)]])])
  {
    assert Keys(s1) == {"output"};
    assert [] + [[("id", x)]] == [[("id", x)]];
    GetLast(s1, "c", [[("id", x)]]);
    ScalarMemberFillsLastRecord(s1 + [("c", [[("id", x)]])], "c", [], [("id", x)], c, 0, 0, x, false);
    assert Set([("id", x)], "id", y) == [("id", y)];
    assert [] + [[("id", y)]] == [[("id", y)]];
    SetLast(s1, "c", [[("id", x)]], [[("id", y)]]);
  }

  /** "d" below "c" becomes the collection "c_d" with the root's id. */
  lemma GrandchildRecord(s1: Collections, c: Value, x: Value, y: Value, p: Value, q: Value)
    requires x != Null && p.IsScalar() && q.IsScalar() && s1 == [("output", [[("id", x)]])]
    requires c.Obj? && |c.fields| == 2 && c.fields[1] == ("d", Obj([("p", p), ("q", q)]))
    ensures FlattenMember(s1 + [("c", [[("id", y)]])], c, 1, 0, "c", x, false)
         == Ok(s1 + [("c", [[("id", y)]])] + [("c_d", [[("id", x), ("p", p), ("q", q)]])])
  {
    assert Keys(s1) == {"output"};
    KeysAppend(s1, "c", [[("id", y)]]);
    assert ChildName("c", "d") == "c_d";
    assert ScalarObject(c.fields[1].1);
    ScalarChildOpensRecord(s1 + [("c", [[("id", y)]])], c, 1, 0, "c", x);
    RecordOfPair(x, "p", p, "q", q);
  }
}

=== FILE: Flattener.dfy ===
/**
  The flattener of flatten_json.py (whose code is repeated in
  api/backend/lambda_function.py): one recursive walk over a decoded JSON
  value that threads the collection set, the current collection name
  (`filename`), the inherited id, the enclosing array index and the
  "record the index" flag, and splits every nested object and array into
  its own named collection of records.
 */
module Flattener {
  import opened Dicts
  import opened Json

  /** `get_id`: the value of the object's own "id" member, `None` when it has
      none. Nested objects are not searched. */
  function GetId(fields: Dict<Value>): (r: Value)
    ensures "id" !in Keys(fields) ==> r == Null
    ensures r != Null ==> ("id", r) in fields
    ensures Get(fields, "id").Some? ==> r == Get(fields, "id").value
  {
    if |fields| == 0 then Null
    else if fields[0].0 == "id" then fields[0].1
    else GetId(fields[1..])
  }

  /** The records of a collection, or none when it does not exist. */
  function Records(cs: Collections, name: string): seq<Record>
  {
    match Get(cs, name)
    case Some(rs) => rs
    case None => []
  }

  /** The records of a collection in a well-formed set are proper dicts. */
  lemma RecordsOfWellFormed(cs: Collections, name: string)
    requires WellFormed(cs)
    ensures AllKeyed(Records(cs, name))
  {
    if name in Keys(cs) {
      GetOfWellFormed(cs, name);
    }
  }

  /** What a freshly made record holds under "id": the inherited id, if any. */
  function IdField(id: Value): Option<Value>
  {
    if id != Null then Some(id) else None
  }

  /** `{}` followed by `['id'] = id_value` when an id is inherited. */
  function NewRecord(id: Value): (r: Record)
    ensures Keyed(r)
    ensures Get(r, "id") == IdField(id)
    ensures Keys(r) <= {"id"}
  {
    if id != Null then Set([], "id", id) else []
  }

  /** Python's `key[:-1]`. */
  function DropLast(key: string): (r: string)
    ensures key != "" ==> r + [key[|key| - 1]] == key
    ensures key == "" ==> r == ""
  {
    if key == "" then "" else key[..|key| - 1]
  }

  /** The collection name for an object-valued member `key` under `prefix`. */
  function ChildName(prefix: string, key: string): (r: string)
    ensures prefix == "" ==> r == key
    ensures prefix != "" ==> |r| > |prefix| && r[..|prefix|] == prefix && r[|prefix|] == '_'
    ensures prefix != "" ==> r[|prefix| + 1..] == key
  {
    if prefix != "" then prefix + "_" + key else key
  }

  /** The collection name for an array-valued member `key` under `prefix`:
      the name the key would give an object-valued member, less exactly its
      final character, whatever that character is. */
  function ListChildName(prefix: string, key: string): (r: string)
    ensures key != "" ==> r + [key[|key| - 1]] == ChildName(prefix, key)
    ensures key != "" ==> |r| + 1 == |ChildName(prefix, key)|
    ensures key == "" ==> r == ChildName(prefix, "")
  {
    var k := DropLast(key);
    if prefix != "" && key != "" then
      assert prefix + "_" + k + [key[|key| - 1]] == prefix + "_" + (k + [key[|key| - 1]]);
      ChildName(prefix, k)
    else
      ChildName(prefix, k)
  }

  /** `if newfilename not in result: result[newfilename] = []`: an existing
      collection is kept as it is. */
  function EnsureCollection(acc: Collections, name: string): (r: Collections)
    ensures Keys(r) == Keys(acc) + {name}
    ensures name in Keys(acc) ==> r == acc
    ensures name !in Keys(acc) ==> Get(r, name) == Some([])
    ensures forall n :: n != name ==> Get(r, n) == Get(acc, n)
  {
    if name in Keys(acc) then acc else Set(acc, name, [])
  }

  /** The record list of the object block: `before` plus a fresh record with
      the inherited id, then "__index" written at position `index`. */
  function AppendOpened(before: seq<Record>, id: Value, setIndex: bool, index: nat, name: string)
    : (r: Result<seq<Record>>)
    ensures r.Err? <==> setIndex && index > |before|
    ensures r.Ok? ==>
              && var after := r.value;
              && |after| == |before| + 1
              && (forall j :: 0 <= j < |before| && !(setIndex && j == index) ==> after[j] == before[j])
              && Get(after[|before|], "id") == IdField(id)
              && Keys(after[|before|]) <= {"id", "__index"}
              && (!setIndex || index != |before| ==> "__index" !in Keys(after[|before|]))
              && (setIndex ==> Get(after[index], "__index") == Some(Str(Decimal(index))))
              && (setIndex && index < |before| ==> SameExcept(after[index], before[index], "__index"))
    ensures r.Ok? && AllKeyed(before) ==> AllKeyed(r.value)
  {
    var recs := before + [NewRecord(id)];
    if !setIndex then Ok(recs)
    else if index < |recs| then Ok(recs[index := Set(recs[index], "__index", Str(Decimal(index)))])
    else Err(IndexError(name, index))
  }

  /** The block for an object-valued member with more than one field: append
      an empty record (creating the collection), give it the inherited id,
      and when `setIndex` holds write "__index" into the record at position
      `index` (not necessarily the one just appended), which fails when the
      collection is too short. A narrower object appends nothing. */
  function OpenRecord(acc: Collections, name: string, width: nat, id: Value, setIndex: bool, index: nat)
    : (r: Result<Collections>)
    ensures width <= 1 ==> r == Ok(acc)
    ensures width > 1 ==> (r.Err? <==> setIndex && index > |Records(acc, name)|)
    ensures r.Ok? && width > 1 ==>
              && Keys(r.value) == Keys(acc) + {name}
              && (forall n :: n != name ==> Get(r.value, n) == Get(acc, n))
              && AppendOpened(Records(acc, name), id, setIndex, index, name) == Ok(Records(r.value, name))
  {
    if width <= 1 then Ok(acc)
    else
      var recs :- AppendOpened(Records(acc, name), id, setIndex, index, name);
      Ok(Set(acc, name, recs))
  }

  /** The record the array loop appends for element `i` of `n`: the
      inherited id, and the position as "__index" when `n > 1`. */
  function ItemRecord(id: Value, i: nat, n: nat): (r: Record)
    ensures Keyed(r)
    ensures Get(r, "id") == IdField(id)
    ensures Get(r, "__index") == (if n > 1 then Some(Str(Decimal(i))) else None)
    ensures Keys(r) <= {"id", "__index"}
  {
    if n > 1 then Set(NewRecord(id), "__index", Str(Decimal(i))) else NewRecord(id)
  }

  /** One iteration of the array loop: append the element's record to the
      current collection, a KeyError when that collection does not exist. */
  function AppendItemRecord(acc: Collections, name: string, id: Value, i: nat, n: nat)
    : (r: Result<Collections>)
    ensures r.Err? <==> name !in Keys(acc)
    ensures r.Err? ==> r.error == KeyError(name)
    ensures r.Ok? ==>
              && Keys(r.value) == Keys(acc)
              && (forall m :: m != name ==> Get(r.value, m) == Get(acc, m))
              && Records(r.value, name) == Records(acc, name) + [ItemRecord(id, i, n)]
  {
    match Get(acc, name)
    case None => Err(KeyError(name))
    case Some(recs) => Ok(Set(acc, name, recs + [ItemRecord(id, i, n)]))
  }

  /** `before` with `key` set to `data` in its last record and nothing else changed. */
  ghost predicate WroteLast(before: seq<Record>, after: seq<Record>, key: string, data: Value)
    requires |before| > 0
  {
    && |after| == |before|
    && after[..|after| - 1] == before[..|before| - 1]
    && Get(after[|after| - 1], key) == Some(data)
    && Keys(after[|after| - 1]) == Keys(before[|before| - 1]) + {key}
    && SameExcept(after[|after| - 1], before[|before| - 1], key)
  }

  /** The two records agree on every field other than `key`. */
  ghost predicate SameExcept(r1: Record, r2: Record, key: string)
  {
    forall k :: k != key ==> Get(r1, k) == Get(r2, k)
  }

  /** `recs[-1][key] = data` on a non-empty record list. */
  function WithLastField(recs: seq<Record>, key: string, data: Value): (r: seq<Record>)
    requires |recs| > 0
    ensures WroteLast(recs, r, key, data)
    ensures AllKeyed(recs) ==> AllKeyed(r)
  {
    recs[|recs| - 1 := Set(recs[|recs| - 1], key, data)]
  }

  /** `result[name][-1][key] = data`: KeyError on an absent collection,
      IndexError on an empty one. */
  function WriteLast(acc: Collections, name: string, key: string, data: Value)
    : (r: Result<Collections>)
    ensures r.Ok? <==> name in Keys(acc) && |Records(acc, name)| > 0
    ensures r.Ok? ==>
              && Keys(r.value) == Keys(acc)
              && (forall n :: n != name ==> Get(r.value, n) == Get(acc, n))
              && WroteLast(Records(acc, name), Records(r.value, name), key, data)
  {
    match Get(acc, name)
    case None => Err(KeyError(name))
    case Some(recs) =>
      if |recs| == 0 then Err(IndexError(name, -1))
      else Ok(Set(acc, name, WithLastField(recs, key, data)))
  }

  /** The scalar case: store `data` under `key` in the last record of the
      current collection, overwriting any value already there. With an empty
      name the collection "output" is first reset to one empty record, so
      only the last scalar written at the root survives. */
  function StoreScalar(acc: Collections, filename: string, key: string, data: Value)
    : (r: Result<Collections>)
    ensures filename == "" ==>
              && r.Ok?
              && Get(r.value, "output") == Some([[(key, data)]])
              && Keys(r.value) == Keys(acc) + {"output"}
              && forall n :: n != "output" ==> Get(r.value, n) == Get(acc, n)
    ensures filename != "" ==>
              (r.Ok? <==> filename in Keys(acc) && |Records(acc, filename)| > 0)
    ensures filename != "" && r.Ok? ==>
              && Keys(r.value) == Keys(acc)
              && (forall n :: n != filename ==> Get(r.value, n) == Get(acc, n))
              && WroteLast(Records(acc, filename), Records(r.value, filename), key, data)
  {
    if filename == "" then Ok(Set(acc, "output", [Set([], key, data)]))
    else WriteLast(acc, filename, key, data)
  }

  /** Each write step keeps the collection set and its records proper dicts. */
  lemma EnsureCollectionKeepsWellFormed(acc: Collections, name: string)
    requires WellFormed(acc)
    ensures WellFormed(EnsureCollection(acc, name))
  {
    SetKeepsWellFormed(acc, name, []);
  }

  lemma OpenRecordKeepsWellFormed(acc: Collections, name: string, width: nat, id: Value, setIndex: bool, index: nat)
    requires WellFormed(acc)
    requires OpenRecord(acc, name, width, id, setIndex, index).Ok?
    ensures WellFormed(OpenRecord(acc, name, width, id, setIndex, index).value)
  {
    if width > 1 {
      RecordsOfWellFormed(acc, name);
      SetKeepsWellFormed(acc, name, AppendOpened(Records(acc, name), id, setIndex, index, name).value);
    }
  }

  lemma AppendItemRecordKeepsWellFormed(acc: Collections, name: string, id: Value, i: nat, n: nat)
    requires WellFormed(acc)
    requires AppendItemRecord(acc, name, id, i, n).Ok?
    ensures WellFormed(AppendItemRecord(acc, name, id, i, n).value)
  {
    RecordsOfWellFormed(acc, name);
    SetKeepsWellFormed(acc, name, Records(acc, name) + [ItemRecord(id, i, n)]);
  }

  lemma StoreScalarKeepsWellFormed(acc: Collections, filename: string, key: string, data: Value)
    requires WellFormed(acc)
    requires StoreScalar(acc, filename, key, data).Ok?
    ensures WellFormed(StoreScalar(acc, filename, key, data).value)
  {
    if filename == "" {
      SetKeepsWellFormed(acc, "output", [Set([], key, data)]);
    } else {
      RecordsOfWellFormed(acc, filename);
      SetKeepsWellFormed(acc, filename, WithLastField(Records(acc, filename), key, data));
    }
  }

  /** No collection whose name is shorter than `n` characters changed. */
  ghost predicate Untouched(before: Collections, after: Collections, n: nat)
  {
    forall h :: |h| < n ==> Get(after, h) == Get(before, h)
  }

  /** `flatten(result, data, key, index, filename, id_value, set_index)`:
      dispatch on the shape of `v`. An object that inherits no id looks up
      its own; once an id is inherited it is passed down unchanged. Every
      write lands in a collection whose name is at least as long as the
      current one, so shorter names are left alone. */
  function FlattenValue(acc: Collections, v: Value, key: string, index: nat, filename: string,
                        id: Value, setIndex: bool): (r: Result<Collections>)
    ensures r.Ok? ==> Keys(acc) <= Keys(r.value)
    decreases v, 1, 0, 0
  {
    match v
    case Obj(fields) =>
      FlattenFields(acc, v, 0, index, filename, if id == Null then GetId(fields) else id, setIndex)
    case Arr(_) => FlattenItems(acc, v, 0, filename, id, setIndex)
    case _ => StoreScalar(acc, filename, key, v)
  }

  /** The loop over an object's members from member `i` on. */
  function FlattenFields(acc: Collections, obj: Value, i: nat, index: nat, filename: string,
                         id: Value, setIndex: bool): (r: Result<Collections>)
    requires obj.Obj? && i <= |obj.fields|
    ensures r.Ok? ==> Keys(acc) <= Keys(r.value)
    decreases obj, 0, |obj.fields| - i, 1
  {
    if i == |obj.fields| then Ok(acc)
    else
      var next :- FlattenMember(acc, obj, i, index, filename, id, setIndex);
      FlattenFields(next, obj, i + 1, index, filename, id, setIndex)
  }

  /** The body of the member loop for member `i`: an object member with more
      than one field opens a record in `filename_key`, an array member makes
      sure `filename_key[:-1]` exists, and both recurse under that name; a
      scalar member recurses under the current name. */
  function FlattenMember(acc: Collections, obj: Value, i: nat, index: nat, filename: string,
                         id: Value, setIndex: bool): (r: Result<Collections>)
    requires obj.Obj? && i < |obj.fields|
    ensures r.Ok? ==> Keys(acc) <= Keys(r.value)
    decreases obj, 0, |obj.fields| - i, 0
  {
    var k := obj.fields[i].0;
    var val := obj.fields[i].1;
    match val
    case Obj(sub) =>
      var name := ChildName(filename, k);
      var withRecord :- OpenRecord(acc, name, |sub|, id, setIndex, index);
      FlattenValue(withRecord, val, k, index, name, id, setIndex)
    case Arr(_) =>
      var name := ListChildName(filename, k);
      FlattenValue(EnsureCollection(acc, name), val, k, index, name, id, setIndex)
    case _ =>
      FlattenValue(acc, val, k, index, filename, id, setIndex)
  }

  /** The loop over an array's elements from element `i` on: each element
      gets a fresh record in the current collection, then is flattened into
      that same collection with its own position as the index. */
  function FlattenItems(acc: Collections, arr: Value, i: nat, filename: string,
                        id: Value, setIndex: bool): (r: Result<Collections>)
    requires arr.Arr? && i <= |arr.items|
    ensures r.Ok? ==> Keys(acc) <= Keys(r.value)
    decreases arr, 0, |arr.items| - i, 1
  {
    if i == |arr.items| then Ok(acc)
    else
      var next :- FlattenItem(acc, arr, i, filename, id, setIndex);
      FlattenItems(next, arr, i + 1, filename, id, setIndex || |arr.items| > 1)
  }

  /** The body of the array loop for element `i`: append its record, then
      flatten the element into the same collection. Once the array has more
      than one element, `set_index` is on for the element and the rest. */
  function FlattenItem(acc: Collections, arr: Value, i: nat, filename: string,
                       id: Value, setIndex: bool): (r: Result<Collections>)
    requires arr.Arr? && i < |arr.items|
    ensures r.Ok? ==> Keys(acc) <= Keys(r.value)
    decreases arr, 0, |arr.items| - i, 0
  {
    var appended :- AppendItemRecord(acc, filename, id, i, |arr.items|);
    FlattenValue(appended, arr.items[i], "", i, filename, id, setIndex || |arr.items| > 1)
  }

  /** `flatten({}, data)`: the whole document from an empty collection set.
      When it succeeds, the result is a proper dict of lists of proper dicts. */
  function Flatten(doc: Value): (r: Result<Collections>)
    ensures r.Ok? ==> WellFormed(r.value)
  {
    if FlattenValue([], doc, "", 0, "", Null, false).Ok? then
      ValueKeepsWellFormed([], doc, "", 0, "", Null, false);
      FlattenValue([], doc, "", 0, "", Null, false)
    else
      FlattenValue([], doc, "", 0, "", Null, false)
  }

  /** One pass of the array loop, as an equation between loop states. */
  lemma ItemsStep(acc: Collections, arr: Value, i: nat, filename: string, id: Value, setIndex: bool)
    requires arr.Arr? && i < |arr.items|
    requires FlattenItems(acc, arr, i, filename, id, setIndex).Ok?
    ensures FlattenItem(acc, arr, i, filename, id, setIndex).Ok?
    ensures FlattenItems(acc, arr, i, filename, id, setIndex)
         == FlattenItems(FlattenItem(acc, arr, i, filename, id, setIndex).value, arr, i + 1, filename, id,
                         setIndex || |arr.items| > 1)
  {
  }

  /** The same pass read forwards, from a successful element. */
  lemma ItemsForward(acc: Collections, arr: Value, i: nat, filename: string, id: Value, setIndex: bool)
    requires arr.Arr? && i < |arr.items|
    requires FlattenItem(acc, arr, i, filename, id, setIndex).Ok?
    ensures FlattenItems(acc, arr, i, filename, id, setIndex)
         == FlattenItems(FlattenItem(acc, arr, i, filename, id, setIndex).value, arr, i + 1, filename, id,
                         setIndex || |arr.items| > 1)
  {
  }

  /** One pass of the member loop, as an equation between loop states. */
  lemma FieldsStep(acc: Collections, obj: Value, i: nat, index: nat, filename: string, id: Value, setIndex: bool)
    requires obj.Obj? && i < |obj.fields|
    requires FlattenFields(acc, obj, i, index, filename, id, setIndex).Ok?
    ensures FlattenMember(acc, obj, i, index, filename, id, setIndex).Ok?
    ensures FlattenFields(acc, obj, i, index, filename, id, setIndex)
         == FlattenFields(FlattenMember(acc, obj, i, index, filename, id, setIndex).value, obj, i + 1, index,
                          filename, id, setIndex)
  {
  }

  /** The same pass read forwards, from a successful member. */
  lemma FieldsForward(acc: Collections, obj: Value, i: nat, index: nat, filename: string, id: Value, setIndex: bool)
    requires obj.Obj? && i < |obj.fields|
    requires FlattenMember(acc, obj, i, index, filename, id, setIndex).Ok?
    ensures FlattenFields(acc, obj, i, index, filename, id, setIndex)
         == FlattenFields(FlattenMember(acc, obj, i, index, filename, id, setIndex).value, obj, i + 1, index,
                          filename, id, setIndex)
  {
  }

  /** What one flatten call keeps: no collection name disappears, and below
      a non-empty name no collection with a shorter name changes (every
      write goes to the current name or to a longer one). */
  ghost predicate Grows(before: Collections, after: Collections, filename: string)
  {
    && Keys(before) <= Keys(after)
    && (filename != "" ==> Untouched(before, after, |filename|))
  }

  lemma {:induction false} ValueGrows(acc: Collections, v: Value, key: string, index: nat, filename: string,
                                      id: Value, setIndex: bool)
    requires FlattenValue(acc, v, key, index, filename, id, setIndex).Ok?
    ensures Grows(acc, FlattenValue(acc, v, key, index, filename, id, setIndex).value, filename)
    decreases v, 1, 0, 0
  {
    match v
    case Obj(fields) =>
      FieldsGrow(acc, v, 0, index, filename, if id == Null then GetId(fields) else id, setIndex);
    case Arr(_) =>
      ItemsGrow(acc, v, 0, filename, id, setIndex);
    case _ =>
  }

  lemma {:induction false} FieldsGrow(acc: Collections, obj: Value, i: nat, index: nat, filename: string,
                                      id: Value, setIndex: bool)
    requires obj.Obj? && i <= |obj.fields|
    requires FlattenFields(acc, obj, i, index, filename, id, setIndex).Ok?
    ensures Grows(acc, FlattenFields(acc, obj, i, index, filename, id, setIndex).value, filename)
    decreases obj, 0, |obj.fields| - i, 1
  {
    if i < |obj.fields| {
      FieldsStep(acc, obj, i, index, filename, id, setIndex);
      var m := FlattenMember(acc, obj, i, index, filename, id, setIndex).value;
      MemberGrows(acc, obj, i, index, filename, id, setIndex);
      FieldsGrow(m, obj, i + 1, index, filename, id, setIndex);
    }
  }

  lemma {:induction false} MemberGrows(acc: Collections, obj: Value, i: nat, index: nat, filename: string,
                                       id: Value, setIndex: bool)
    requires obj.Obj? && i < |obj.fields|
    requires FlattenMember(acc, obj, i, index, filename, id, setIndex).Ok?
    ensures Grows(acc, FlattenMember(acc, obj, i, index, filename, id, setIndex).value, filename)
    decreases obj, 0, |obj.fields| - i, 0
  {
    var k := obj.fields[i].0;
    var val := obj.fields[i].1;
    match val
    case Obj(sub) =>
      var name := ChildName(filename, k);
      var w := OpenRecord(acc, name, |sub|, id, setIndex, index).value;
      ValueGrows(w, val, k, index, name, id, setIndex);
    case Arr(_) =>
      var name := ListChildName(filename, k);
      ValueGrows(EnsureCollection(acc, name), val, k, index, name, id, setIndex);
    case _ =>
      ValueGrows(acc, val, k, index, filename, id, setIndex);
  }

  lemma {:induction false} ItemsGrow(acc: Collections, arr: Value, i: nat, filename: string,
                                     id: Value, setIndex: bool)
    requires arr.Arr? && i <= |arr.items|
    requires FlattenItems(acc, arr, i, filename, id, setIndex).Ok?
    ensures Grows(acc, FlattenItems(acc, arr, i, filename, id, setIndex).value, filename)
    decreases arr, 0, |arr.items| - i, 1
  {
    if i < |arr.items| {
      ItemsStep(acc, arr, i, filename, id, setIndex);
      var next := FlattenItem(acc, arr, i, filename, id, setIndex).value;
      ItemGrows(acc, arr, i, filename, id, setIndex);
      ItemsGrow(next, arr, i + 1, filename, id, setIndex || |arr.items| > 1);
    }
  }

  lemma {:induction false} ItemGrows(acc: Collections, arr: Value, i: nat, filename: string,
                                     id: Value, setIndex: bool)
    requires arr.Arr? && i < |arr.items|
    requires FlattenItem(acc, arr, i, filename, id, setIndex).Ok?
    ensures Grows(acc, FlattenItem(acc, arr, i, filename, id, setIndex).value, filename)
    decreases arr, 0, |arr.items| - i, 0
  {
    var appended := AppendItemRecord(acc, filename, id, i, |arr.items|).value;
    ValueGrows(appended, arr.items[i], "", i, filename, id, setIndex || |arr.items| > 1);
  }

  /** Every write of the flattener keeps records and the collection set
      proper dicts. */
  lemma {:induction false} ValueKeepsWellFormed(acc: Collections, v: Value, key: string, index: nat, filename: string,
                                      id: Value, setIndex: bool)
    requires FlattenValue(acc, v, key, index, filename, id, setIndex).Ok?
    requires WellFormed(acc)
    ensures WellFormed(FlattenValue(acc, v, key, index, filename, id, setIndex).value)
    decreases v, 1, 0, 0
  {
    match v
    case Obj(fields) =>
      FieldsKeepWellFormed(acc, v, 0, index, filename, if id == Null then GetId(fields) else id, setIndex);
    case Arr(_) =>
      ItemsKeepWellFormed(acc, v, 0, filename, id, setIndex);
    case _ =>
      StoreScalarKeepsWellFormed(acc, filename, key, v);
  }

  lemma {:induction false} FieldsKeepWellFormed(acc: Collections, obj: Value, i: nat, index: nat, filename: string,
                                      id: Value, setIndex: bool)
    requires obj.Obj? && i <= |obj.fields|
    requires FlattenFields(acc, obj, i, index, filename, id, setIndex).Ok?
    requires WellFormed(acc)
    ensures WellFormed(FlattenFields(acc, obj, i, index, filename, id, setIndex).value)
    decreases obj, 0, |obj.fields| - i, 1
  {
    if i < |obj.fields| {
      FieldsStep(acc, obj, i, index, filename, id, setIndex);
      var m := FlattenMember(acc, obj, i, index, filename, id, setIndex).value;
      MemberKeepsWellFormed(acc, obj, i, index, filename, id, setIndex);
      var rest := FlattenFields(m, obj, i + 1, index, filename, id, setIndex);
      assert rest == FlattenFields(acc, obj, i, index, filename, id, setIndex);
      FieldsKeepWellFormed(m, obj, i + 1, index, filename, id, setIndex);
    }
  }

  lemma {:induction false} MemberKeepsWellFormed(acc: Collections, obj: Value, i: nat, index: nat, filename: string,
                                       id: Value, setIndex: bool)
    requires obj.Obj? && i < |obj.fields|
    requires FlattenMember(acc, obj, i, index, filename, id, setIndex).Ok?
    requires WellFormed(acc)
    ensures WellFormed(FlattenMember(acc, obj, i, index, filename, id, setIndex).value)
    decreases obj, 0, |obj.fields| - i, 0
  {
    var k := obj.fields[i].0;
    var val := obj.fields[i].1;
    match val
    case Obj(sub) =>
      var name := ChildName(filename, k);
      var w := OpenRecord(acc, name, |sub|, id, setIndex, index).value;
      OpenRecordKeepsWellFormed(acc, name, |sub|, id, setIndex, index);
      ValueKeepsWellFormed(w, val, k, index, name, id, setIndex);
    case Arr(_) =>
      var name := ListChildName(filename, k);
      EnsureCollectionKeepsWellFormed(acc, name);
      ValueKeepsWellFormed(EnsureCollection(acc, name), val, k, index, name, id, setIndex);
    case _ =>
      ValueKeepsWellFormed(acc, val, k, index, filename, id, setIndex);
  }

  lemma {:induction false} ItemsKeepWellFormed(acc: Collections, arr: Value, i: nat, filename: string,
                                     id: Value, setIndex: bool)
    requires arr.Arr? && i <= |arr.items|
    requires FlattenItems(acc, arr, i, filename, id, setIndex).Ok?
    requires WellFormed(acc)
    ensures WellFormed(FlattenItems(acc, arr, i, filename, id, setIndex).value)
    decreases arr, 0, |arr.items| - i, 1
  {
    if i < |arr.items| {
      ItemsStep(acc, arr, i, filename, id, setIndex);
      var next := FlattenItem(acc, arr, i, filename, id, setIndex).value;
      ItemKeepsWellFormed(acc, arr, i, filename, id, setIndex);
      ItemsKeepWellFormed(next, arr, i + 1, filename, id, setIndex || |arr.items| > 1);
    }
  }

  lemma {:induction false} ItemKeepsWellFormed(acc: Collections, arr: Value, i: nat, filename: string,
                                     id: Value, setIndex: bool)
    requires arr.Arr? && i < |arr.items|
    requires FlattenItem(acc, arr, i, filename, id, setIndex).Ok?
    requires WellFormed(acc)
    ensures WellFormed(FlattenItem(acc, arr, i, filename, id, setIndex).value)
    decreases arr, 0, |arr.items| - i, 0
  {
    var appended := AppendItemRecord(acc, filename, id, i, |arr.items|).value;
    AppendItemRecordKeepsWellFormed(acc, filename, id, i, |arr.items|);
    ValueKeepsWellFormed(appended, arr.items[i], "", i, filename, id, setIndex || |arr.items| > 1);
  }

  /** Below a non-empty name, flattening one object member leaves the
      current collection as long as it was: nested objects and arrays write
      to longer names, and a scalar overwrites a field of the last record. */
  lemma {:induction false} MemberKeepsCount(acc: Collections, obj: Value, i: nat, index: nat, filename: string,
                                            id: Value, setIndex: bool)
    requires obj.Obj? && i < |obj.fields| && filename != ""
    requires FlattenMember(acc, obj, i, index, filename, id, setIndex).Ok?
    ensures |Records(FlattenMember(acc, obj, i, index, filename, id, setIndex).value, filename)|
         == |Records(acc, filename)|
  {
    var k := obj.fields[i].0;
    var val := obj.fields[i].1;
    match val
    case Obj(sub) =>
      var name := ChildName(filename, k);
      var w := OpenRecord(acc, name, |sub|, id, setIndex, index).value;
      ValueGrows(w, val, k, index, name, id, setIndex);
      assert Get(w, filename) == Get(acc, filename);
    case Arr(_) =>
      var name := ListChildName(filename, k);
      ValueGrows(EnsureCollection(acc, name), val, k, index, name, id, setIndex);
      assert Get(EnsureCollection(acc, name), filename) == Get(acc, filename);
    case _ =>
  }

  /** Below a non-empty name, the member loop leaves the current collection
      as long as it was. */
  lemma {:induction false} FieldsKeepCount(acc: Collections, obj: Value, i: nat, index: nat, filename: string,
                                           id: Value, setIndex: bool)
    requires obj.Obj? && i <= |obj.fields| && filename != ""
    requires FlattenFields(acc, obj, i, index, filename, id, setIndex).Ok?
    ensures |Records(FlattenFields(acc, obj, i, index, filename, id, setIndex).value, filename)|
         == |Records(acc, filename)|
    decreases |obj.fields| - i
  {
    if i < |obj.fields| {
      FieldsStep(acc, obj, i, index, filename, id, setIndex);
      var m := FlattenMember(acc, obj, i, index, filename, id, setIndex).value;
      MemberKeepsCount(acc, obj, i, index, filename, id, setIndex);
      FieldsKeepCount(m, obj, i + 1, index, filename, id, setIndex);
    }
  }

  /** An array element that is not itself an array adds no record to the
      collection it is flattened into. */
  lemma ElementKeepsCount(acc: Collections, v: Value, key: string, index: nat, filename: string,
                          id: Value, setIndex: bool)
    requires !v.Arr? && filename != ""
    requires FlattenValue(acc, v, key, index, filename, id, setIndex).Ok?
    ensures |Records(FlattenValue(acc, v, key, index, filename, id, setIndex).value, filename)|
         == |Records(acc, filename)|
  {
    if v.Obj? {
      FieldsKeepCount(acc, v, 0, index, filename, if id == Null then GetId(v.fields) else id, setIndex);
    }
  }

  /** An array of elements none of which is an array adds exactly one record
      per element to the current collection. */
  lemma {:induction false} ItemsAddOneRecordEach(acc: Collections, arr: Value, i: nat, filename: string,
                                                 id: Value, setIndex: bool)
    requires arr.Arr? && i <= |arr.items| && filename != ""
    requires forall j :: i <= j < |arr.items| ==> !arr.items[j].Arr?
    requires FlattenItems(acc, arr, i, filename, id, setIndex).Ok?
    ensures |Records(FlattenItems(acc, arr, i, filename, id, setIndex).value, filename)|
         == |Records(acc, filename)| + (|arr.items| - i)
    decreases |arr.items| - i
  {
    if i < |arr.items| {
      ItemsStep(acc, arr, i, filename, id, setIndex);
      ItemAddsOneRecord(acc, arr, i, filename, id, setIndex);
      var next := FlattenItem(acc, arr, i, filename, id, setIndex).value;
      var rest := FlattenItems(next, arr, i + 1, filename, id, setIndex || |arr.items| > 1);
      ItemsAddOneRecordEach(next, arr, i + 1, filename, id, setIndex || |arr.items| > 1);
      assert |Records(rest.value, filename)| == |Records(next, filename)| + (|arr.items| - (i + 1));
      assert FlattenItems(acc, arr, i, filename, id, setIndex) == rest;
    }
  }

  /** One pass of the array loop over a non-array element adds exactly its
      own record to the current collection. */
  lemma ItemAddsOneRecord(acc: Collections, arr: Value, i: nat, filename: string, id: Value, setIndex: bool)
    requires arr.Arr? && i < |arr.items| && filename != "" && !arr.items[i].Arr?
    requires FlattenItem(acc, arr, i, filename, id, setIndex).Ok?
    ensures |Records(FlattenItem(acc, arr, i, filename, id, setIndex).value, filename)|
         == |Records(acc, filename)| + 1
  {
    var appended := AppendItemRecord(acc, filename, id, i, |arr.items|).value;
    ElementKeepsCount(appended, arr.items[i], "", i, filename, id, setIndex || |arr.items| > 1);
  }

  /** The fields of `rec` after assigning `fields` to it one by one. */
  function SetAll(rec: Record, fields: Dict<Value>): Record
    decreases |fields|
  {
    if |fields| == 0 then rec else SetAll(Set(rec, fields[0].0, fields[0].1), fields[1..])
  }

  /** Assigning a fresh key first appends it. */
  lemma SetAllFirst(rec: Record, fields: Dict<Value>)
    requires |fields| > 0 && fields[0].0 !in Keys(rec)
    ensures SetAll(rec, fields) == SetAll(rec + [fields[0]], fields[1..])
  {
    SetNew(rec, fields[0].0, fields[0].1);
  }

  /** Assigning fresh, distinct keys appends them in order. */
  lemma {:induction false} SetAllFresh(rec: Record, fields: Dict<Value>)
    requires Keyed(fields) && Keys(rec) !! Keys(fields)
    ensures SetAll(rec, fields) == rec + fields
    decreases |fields|
  {
    if |fields| > 0 {
      var (k, v) := fields[0];
      var rest := fields[1..];
      assert Keys(fields) == {k} + Keys(rest) && k !in Keys(rest) && Keyed(rest);
      SetAllFirst(rec, fields);
      KeysAppend(rec, k, v);
      SetAllFresh(rec + [(k, v)], rest);
      AppendHead(rec, fields);
    }
  }

  /** A scalar member below a non-empty name is written into the last
      record of that name's collection, wherever the collection sits in the
      set. */
  lemma ScalarMemberFillsLastRecord(acc: Collections, name: string, recs: seq<Record>, rec: Record,
                                    obj: Value, i: nat, index: nat, id: Value, setIndex: bool)
    requires obj.Obj? && i < |obj.fields| && obj.fields[i].1.IsScalar()
    requires name != "" && Get(acc, name) == Some(recs + [rec])
    ensures FlattenMember(acc, obj, i, index, name, id, setIndex)
         == Ok(Set(acc, name, recs + [Set(rec, obj.fields[i].0, obj.fields[i].1)]))
  {
    var k := obj.fields[i].0;
    assert WithLastField(recs + [rec], k, obj.fields[i].1) == recs + [Set(rec, k, obj.fields[i].1)];
  }

  /** An object whose members are all scalars. */
  predicate ScalarObject(v: Value)
  {
    v.Obj? && forall j :: 0 <= j < |v.fields| ==> v.fields[j].1.IsScalar()
  }

  /** Members that are all scalars fill the last record of the current
      collection in member order, later values overwriting earlier ones;
      no other collection changes. */
  lemma {:induction false} ScalarsFillLastRecord(acc: Collections, name: string, recs: seq<Record>, rec: Record,
                                                 obj: Value, i: nat, index: nat, id: Value, setIndex: bool)
    requires obj.Obj? && i <= |obj.fields|
    requires forall j :: i <= j < |obj.fields| ==> obj.fields[j].1.IsScalar()
    requires name != "" && Get(acc, name) == Some(recs + [rec])
    ensures FlattenFields(acc, obj, i, index, name, id, setIndex)
         == Ok(Set(acc, name, recs + [SetAll(rec, obj.fields[i..])]))
    decreases |obj.fields| - i
  {
    if i < |obj.fields| {
      var rec' := Set(rec, obj.fields[i].0, obj.fields[i].1);
      var acc' := Set(acc, name, recs + [rec']);
      ScalarMemberFillsLastRecord(acc, name, recs, rec, obj, i, index, id, setIndex);
      FieldsForward(acc, obj, i, index, name, id, setIndex);
      ScalarsFillLastRecord(acc', name, recs, rec', obj, i + 1, index, id, setIndex);
      assert obj.fields[i..][1..] == obj.fields[i + 1..];
      SetSet(acc, name, recs + [rec'], recs + [SetAll(rec', obj.fields[i + 1..])]);
    } else {
      assert obj.fields[i..] == [];
      SetSame(acc, name, recs + [rec]);
    }
  }

  /** Opening a record under a new name, outside any array, appends the
      collection with one record holding the inherited id. */
  lemma OpenNewRecord(acc: Collections, name: string, width: nat, id: Value, index: nat)
    requires width > 1 && name !in Keys(acc)
    ensures OpenRecord(acc, name, width, id, false, index) == Ok(acc + [(name, [NewRecord(id)])])
  {
    assert Records(acc, name) == [];
    assert [] + [NewRecord(id)] == [NewRecord(id)];
    SetNew(acc, name, [NewRecord(id)]);
  }

  /** A new child object of scalars with more than one member becomes one
      record of its own collection: the inherited id, then its members. */
  lemma ScalarChildOpensRecord(acc: Collections, obj: Value, i: nat, index: nat, filename: string,
                               id: Value)
    requires obj.Obj? && i < |obj.fields| && ScalarObject(obj.fields[i].1) && |obj.fields[i].1.fields| > 1
    requires ChildName(filename, obj.fields[i].0) != "" && ChildName(filename, obj.fields[i].0) !in Keys(acc)
    ensures FlattenMember(acc, obj, i, index, filename, id, false)
         == Ok(acc + [(ChildName(filename, obj.fields[i].0), [SetAll(NewRecord(id), obj.fields[i].1.fields)])])
  {
    var k := obj.fields[i].0;
    var child := obj.fields[i].1;
    var name := ChildName(filename, k);
    var filled := [SetAll(NewRecord(id), child.fields)];
    OpenNewRecord(acc, name, |child.fields|, id, index);
    assert [] + [NewRecord(id)] == [NewRecord(id)];
    GetLast(acc, name, [NewRecord(id)]);
    ScalarObjectFillsLastRecord(acc + [(name, [NewRecord(id)])], name, [], NewRecord(id), child, k, index, id, false);
    assert [] + filled == filled;
    SetLast(acc, name, [NewRecord(id)], filled);
  }

  /** An object of scalars flattened below a non-empty name fills the last
      record of that name's collection. */
  lemma ScalarObjectFillsLastRecord(acc: Collections, name: string, recs: seq<Record>, rec: Record,
                                    v: Value, key: string, index: nat, id: Value, setIndex: bool)
    requires ScalarObject(v)
    requires name != "" && Get(acc, name) == Some(recs + [rec])
    ensures FlattenValue(acc, v, key, index, name, id, setIndex) == Ok(Set(acc, name, recs + [SetAll(rec, v.fields)]))
  {
    ScalarsFillLastRecord(acc, name, recs, rec, v, 0, index, if id == Null then GetId(v.fields) else id, setIndex);
    assert v.fields[0..] == v.fields;
  }

  /** An array element the flattener stores without opening a collection:
      an object of scalars, or a scalar itself. */
  predicate FlatElement(v: Value)
  {
    ScalarObject(v) || v.IsScalar()
  }

  /** The record element `i` of `items` becomes: the inherited id, the
      position when the array has several elements, then the object's
      members, or the scalar itself under the empty key. */
  function ElementRecord(items: seq<Value>, id: Value, i: nat): Record
    requires i < |items|
  {
    if items[i].Obj? then SetAll(ItemRecord(id, i, |items|), items[i].fields)
    else Set(ItemRecord(id, i, |items|), "", items[i])
  }

  /** A scalar array element becomes a record of its own at the end of the
      current collection, holding the inherited id, the position when the
      array has several elements, and the element under the empty key. */
  lemma ScalarValueElement(acc: Collections, name: string, recs: seq<Record>, arr: Value, i: nat,
                           id: Value, setIndex: bool)
    requires arr.Arr? && i < |arr.items| && arr.items[i].IsScalar()
    requires name != "" && Get(acc, name) == Some(recs)
    ensures FlattenItem(acc, arr, i, name, id, setIndex)
         == Ok(Set(acc, name, recs + [Set(ItemRecord(id, i, |arr.items|), "", arr.items[i])]))
  {
    var v := arr.items[i];
    var item := ItemRecord(id, i, |arr.items|);
    var appended := Set(acc, name, recs + [item]);
    var filled := recs + [Set(item, "", v)];
    assert FlattenItem(acc, arr, i, name, id, setIndex)
        == FlattenValue(appended, v, "", i, name, id, setIndex || |arr.items| > 1) by {
      assert AppendItemRecord(acc, name, id, i, |arr.items|) == Ok(appended);
    }
    assert WithLastField(recs + [item], "", v) == filled;
    ScalarGoesToLast(appended, name, recs + [item], v, i, id, setIndex || |arr.items| > 1);
    SetSet(acc, name, recs + [item], filled);
  }

  /** A scalar flattened below a non-empty name under the empty key lands
      in the last record of that name's collection. */
  lemma ScalarGoesToLast(acc: Collections, name: string, recs: seq<Record>, v: Value, index: nat,
                         id: Value, setIndex: bool)
    requires v.IsScalar() && name != "" && Get(acc, name) == Some(recs) && |recs| > 0
    ensures FlattenValue(acc, v, "", index, name, id, setIndex) == Ok(Set(acc, name, WithLastField(recs, "", v)))
  {
    assert WriteLast(acc, name, "", v) == Ok(Set(acc, name, WithLastField(recs, "", v)));
  }

  /** An array element that is an object of scalars, or a scalar, becomes
      exactly one record at the end of the current collection. */
  lemma ScalarElementAddsRecord(acc: Collections, name: string, recs: seq<Record>, arr: Value, i: nat,
                                id: Value, setIndex: bool)
    requires arr.Arr? && i < |arr.items| && FlatElement(arr.items[i])
    requires name != "" && Get(acc, name) == Some(recs)
    ensures FlattenItem(acc, arr, i, name, id, setIndex)
         == Ok(Set(acc, name, recs + [ElementRecord(arr.items, id, i)]))
  {
    if arr.items[i].Obj? {
      var item := ItemRecord(id, i, |arr.items|);
      var appended := Set(acc, name, recs + [item]);
      assert AppendItemRecord(acc, name, id, i, |arr.items|) == Ok(appended);
      ScalarObjectFillsLastRecord(appended, name, recs, item, arr.items[i], "", i, id, setIndex || |arr.items| > 1);
      SetSet(acc, name, recs + [item], recs + [SetAll(item, arr.items[i].fields)]);
    } else {
      ScalarValueElement(acc, name, recs, arr, i, id, setIndex);
    }
  }

  /** The records an array of scalar objects and scalars becomes, from
      element `i` on. */
  function IndexedRecords(items: seq<Value>, id: Value, i: nat): seq<Record>
    requires i <= |items|
    decreases |items| - i
  {
    if i == |items| then []
    else [ElementRecord(items, id, i)] + IndexedRecords(items, id, i + 1)
  }

  /** An array of scalar objects and scalars becomes that many records at
      the end of the current collection, in element order, wherever the
      collection sits in the set. */
  lemma {:induction false} ScalarElementsAddRecords(acc: Collections, name: string, recs: seq<Record>,
                                                    arr: Value, i: nat, id: Value, setIndex: bool)
    requires arr.Arr? && i <= |arr.items| && forall j :: i <= j < |arr.items| ==> FlatElement(arr.items[j])
    requires name != "" && Get(acc, name) == Some(recs)
    ensures FlattenItems(acc, arr, i, name, id, setIndex)
         == Ok(Set(acc, name, recs + IndexedRecords(arr.items, id, i)))
    decreases |arr.items| - i
  {
    if i < |arr.items| {
      var rec := ElementRecord(arr.items, id, i);
      ScalarElementsAddRecords(Set(acc, name, recs + [rec]), name, recs + [rec], arr, i + 1, id,
                               setIndex || |arr.items| > 1);
      ScalarElementsJoin(acc, name, recs, arr, i, id, setIndex);
    } else {
      assert recs + [] == recs;
      SetSame(acc, name, recs);
    }
  }

  /** The inductive step of `ScalarElementsAddRecords`: one element's
      record, then the rest of the array. */
  lemma ScalarElementsJoin(acc: Collections, name: string, recs: seq<Record>, arr: Value, i: nat,
                           id: Value, setIndex: bool)
    requires arr.Arr? && i < |arr.items| && FlatElement(arr.items[i])
    requires name != "" && Get(acc, name) == Some(recs)
    requires var rec := ElementRecord(arr.items, id, i);
             FlattenItems(Set(acc, name, recs + [rec]), arr, i + 1, name, id, setIndex || |arr.items| > 1)
             == Ok(Set(Set(acc, name, recs + [rec]), name, recs + [rec] + IndexedRecords(arr.items, id, i + 1)))
    ensures FlattenItems(acc, arr, i, name, id, setIndex) == Ok(Set(acc, name, recs + IndexedRecords(arr.items, id, i)))
  {
    var rec := ElementRecord(arr.items, id, i);
    ScalarElementStep(acc, name, recs, arr, i, id, setIndex);
    IndexedRecordsStep(recs, arr.items, id, i);
    SetSet(acc, name, recs + [rec], recs + [rec] + IndexedRecords(arr.items, id, i + 1));
  }

  /** Peeling the first record off `IndexedRecords`. */
  lemma IndexedRecordsStep(recs: seq<Record>, items: seq<Value>, id: Value, i: nat)
    requires i < |items|
    ensures recs + [ElementRecord(items, id, i)] + IndexedRecords(items, id, i + 1)
         == recs + IndexedRecords(items, id, i)
  {
    var rest := IndexedRecords(items, id, i + 1);
    assert IndexedRecords(items, id, i) == [ElementRecord(items, id, i)] + rest;
    assert recs + [ElementRecord(items, id, i)] + rest == recs + ([ElementRecord(items, id, i)] + rest);
  }

  /** One pass of the array loop over an object of scalars or a scalar, as
      an equation between loop states. */
  lemma ScalarElementStep(acc: Collections, name: string, recs: seq<Record>, arr: Value, i: nat,
                          id: Value, setIndex: bool)
    requires arr.Arr? && i < |arr.items| && FlatElement(arr.items[i])
    requires name != "" && Get(acc, name) == Some(recs)
    ensures FlattenItems(acc, arr, i, name, id, setIndex)
         == FlattenItems(Set(acc, name, recs + [ElementRecord(arr.items, id, i)]),
                         arr, i + 1, name, id, setIndex || |arr.items| > 1)
  {
    ScalarElementAddsRecord(acc, name, recs, arr, i, id, setIndex);
    ItemsForward(acc, arr, i, name, id, setIndex);
  }

  /** An array member whose elements are all objects of scalars or scalars,
      under a new name, becomes a collection of one record per element. */
  lemma ScalarArrayMember(acc: Collections, obj: Value, i: nat, index: nat, filename: string,
                          id: Value, setIndex: bool)
    requires obj.Obj? && i < |obj.fields| && obj.fields[i].1.Arr?
    requires forall j :: 0 <= j < |obj.fields[i].1.items| ==> FlatElement(obj.fields[i].1.items[j])
    requires ListChildName(filename, obj.fields[i].0) != ""
    requires ListChildName(filename, obj.fields[i].0) !in Keys(acc)
    ensures FlattenMember(acc, obj, i, index, filename, id, setIndex)
         == Ok(acc + [(ListChildName(filename, obj.fields[i].0), IndexedRecords(obj.fields[i].1.items, id, 0))])
  {
    var name := ListChildName(filename, obj.fields[i].0);
    var arr := obj.fields[i].1;
    var recs := IndexedRecords(arr.items, id, 0);
    ScalarElementsAddRecords(Set(acc, name, []), name, [], arr, 0, id, setIndex);
    assert [] + recs == recs;
    SetSet(acc, name, [], recs);
    SetNew(acc, name, recs);
  }

  /** An array member whose elements are all objects of scalars or
      scalars, under a name whose collection already exists, adds one
      record per element at the end of that collection; nothing else
      changes. */
  lemma ArrayJoinsCollection(acc: Collections, obj: Value, i: nat, index: nat, filename: string,
                             id: Value, setIndex: bool, recs: seq<Record>)
    requires obj.Obj? && i < |obj.fields| && obj.fields[i].1.Arr?
    requires forall j :: 0 <= j < |obj.fields[i].1.items| ==> FlatElement(obj.fields[i].1.items[j])
    requires ListChildName(filename, obj.fields[i].0) != ""
    requires Get(acc, ListChildName(filename, obj.fields[i].0)) == Some(recs)
    ensures FlattenMember(acc, obj, i, index, filename, id, setIndex)
         == Ok(Set(acc, ListChildName(filename, obj.fields[i].0), recs + IndexedRecords(obj.fields[i].1.items, id, 0)))
  {
    ScalarElementsAddRecords(acc, ListChildName(filename, obj.fields[i].0), recs, obj.fields[i].1, 0, id, setIndex);
  }

  /** A member holding an object with a single scalar field opens no
      record: the field is written into the last record of the member's
      collection when that collection exists and is not empty, and it is a
      KeyError on the member's name when the collection does not exist. */
  lemma SingleFieldChild(acc: Collections, obj: Value, i: nat, index: nat, filename: string,
                         id: Value, setIndex: bool)
    requires obj.Obj? && i < |obj.fields| && obj.fields[i].1.Obj? && |obj.fields[i].1.fields| == 1
    requires obj.fields[i].1.fields[0].1.IsScalar()
    requires ChildName(filename, obj.fields[i].0) != ""
    ensures var name := ChildName(filename, obj.fields[i].0);
            var (key, v) := obj.fields[i].1.fields[0];
            && (name !in Keys(acc) ==> FlattenMember(acc, obj, i, index, filename, id, setIndex) == Err(KeyError(name)))
            && (forall recs :: Get(acc, name) == Some(recs) && |recs| > 0 ==>
                  FlattenMember(acc, obj, i, index, filename, id, setIndex)
                  == Ok(Set(acc, name, WithLastField(recs, key, v))))
  {
    var name := ChildName(filename, obj.fields[i].0);
    var child := obj.fields[i].1;
    var id' := if id == Null then GetId(child.fields) else id;
    assert FlattenMember(acc, obj, i, index, filename, id, setIndex)
        == FlattenFields(acc, child, 0, index, name, id', setIndex);
    if name in Keys(acc) && |Records(acc, name)| > 0 {
      var next := Set(acc, name, WithLastField(Records(acc, name), child.fields[0].0, child.fields[0].1));
      assert FlattenMember(acc, child, 0, index, name, id', setIndex) == Ok(next);
      FieldsForward(acc, child, 0, index, name, id', setIndex);
    } else if name !in Keys(acc) {
      assert WriteLast(acc, name, child.fields[0].0, child.fields[0].1) == Err(KeyError(name));
      assert FlattenMember(acc, child, 0, index, name, id', setIndex) == Err(KeyError(name));
    }
  }

  /** A scalar member of the root object replaces "output" with a single
      record holding just that member. */
  lemma RootScalarMember(acc: Collections, obj: Value, i: nat, index: nat, id: Value, setIndex: bool)
    requires obj.Obj? && i < |obj.fields| && obj.fields[i].1.IsScalar()
    ensures FlattenMember(acc, obj, i, index, "", id, setIndex)
         == Ok(Set(acc, "output", [[obj.fields[i]]]))
  {
    assert Set([], obj.fields[i].0, obj.fields[i].1) == [obj.fields[i]];
  }

  /** A bare scalar document becomes one "output" record holding it under
      the empty key. */
  lemma RootScalar(doc: Value)
    requires doc.IsScalar()
    ensures Flatten(doc) == Ok([("output", [[("", doc)]])])
  {
  }

  /** A non-empty array at the root fails: there is no collection named ""
      to append its records to. An empty one yields no collections. */
  lemma RootArray(items: seq<Value>)
    ensures |items| > 0 ==> Flatten(Arr(items)) == Err(KeyError(""))
    ensures |items| == 0 ==> Flatten(Arr(items)) == Ok([])
  {
    if |items| > 0 {
      assert AppendItemRecord([], "", Null, 0, |items|) == Err(KeyError(""));
      assert FlattenItems([], Arr(items), 0, "", Null, false) == Err(KeyError(""));
    }
  }
}

=== FILE: Handler.dfy ===
/**
  The part of `lambda_handler` (api/backend/lambda_function.py) that
  touches the data: a decoded document that Python considers true is
  flattened into a fresh collection set, which is then cleaned. Decoding,
  the HTTP event, files and storage are outside the model.
 */
module Handler {
  import opened Dicts
  import opened Json
  import opened Flattener
  import opened Cleaner

  /** Python truthiness of a decoded JSON value: null, false, 0, "", [] and
      {} are false, everything else is true. */
  predicate Truthy(v: Value)
    ensures Truthy(v) <==> v !in {Null, Bool(false), Num(0), Str(""), Arr([]), Obj([])}
  {
    match v
    case Null => false
    case Bool(b) => b
    case Num(n) => n != 0
    case Str(s) => s != ""
    case Arr(items) => items != []
    case Obj(fields) => fields != []
  }

  /** `if json_data: output = clean(flatten({}, json_data))`. None stands for
      the "Valid JSON data was not provided." branch; an exception raised
      inside `flatten` is the Err inside Some. */
  function Handle(doc: Value): (r: Option<Result<Collections>>)
    ensures r.None? <==> !Truthy(doc)
    ensures r.Some? ==> (r.value.Ok? <==> Flatten(doc).Ok?)
    ensures r.Some? && r.value.Err? ==> r.value.error == Flatten(doc).error
  {
    if !Truthy(doc) then None
    else
      match Flatten(doc)
      case Err(e) => Some(Err(e))
      case Ok(result) => Some(Ok(Clean(result)))
  }

  /** What the handler hands on to be written out: a proper collection set
      of proper records, none of them degenerate, that a second `clean`
      would leave unchanged. */
  lemma HandleOutput(doc: Value)
    requires Handle(doc).Some? && Handle(doc).value.Ok?
    ensures WellFormed(Handle(doc).value.value)
    ensures Clean(Handle(doc).value.value) == Handle(doc).value.value
    ensures forall name, x :: name in Keys(Handle(doc).value.value) && x in Get(Handle(doc).value.value, name).value
              ==> !Degenerate(x)
  {
    var result := Flatten(doc).value;
    var out := Clean(result);
    assert Handle(doc).value.value == out;
    CleanWellFormed(result);
    CleanIdempotent(result);
    forall name, x | name in Keys(out) && x in Get(out, name).value
      ensures !Degenerate(x)
    {
      CleanLeavesData(result, name, x);
    }
  }

  /** The handler's output, as the `clean` loop computes it. */
  method HandleEvent(doc: Value) returns (r: Option<Result<Collections>>)
    ensures r == Handle(doc)
    ensures r.Some? && r.value.Ok? ==> WellFormed(r.value.value)
  {
    if !Truthy(doc) {
      return None;
    }
    var flat := Flatten(doc);
    if flat.Err? {
      return Some(Err(flat.error));
    }
    var output := CleanAll(flat.value);
    CleanWellFormed(flat.value);
    return Some(Ok(output));
  }
}

=== FILE: Json.dfy ===
/**
  Decoded JSON values (the value types of section 3 of RFC 8259), the flat
  records and record collections both transforms work on, and the Python
  exceptions the transforms can raise.
 */
module Json {
  import opened Dicts

  /** A decoded JSON value. Objects keep their members in document order;
      numbers are opaque scalars. `Null` is also Python's `None`. */
  datatype Value =
    | Null
    | Bool(b: bool)
    | Num(n: int)
    | Str(s: string)
    | Arr(items: seq<Value>)
    | Obj(fields: Dict<Value>)
  {
    predicate IsScalar() { !Arr? && !Obj? }
  }

  /** One flattened object: field name to value, in insertion order. */
  type Record = Dict<Value>

  /** Collection name to its records, in the order the names were created. */
  type Collections = Dict<seq<Record>>

  /** The exceptions the source can raise inside the transforms. */
  datatype Error =
    | KeyError(key: string)            // lookup of an absent dict key
    | IndexError(name: string, at: int) // list index out of range
    | NoParent(name: string)           // parent-name recursion that never ends
    | UnboundRemainingKeys             // `remaining_keys` read before assignment

  datatype Result<+T> = Ok(value: T) | Err(error: Error)
  {
    predicate IsFailure() { Err? }

    function PropagateFailure<U>(): Result<U>
      requires Err?
    {
      Err(error)
    }

    function Extract(): T
      requires Ok?
    {
      value
    }
  }

  /** Python's `str(n)` for a non-negative integer. */
  function Decimal(n: nat): (s: string)
    ensures |s| >= 1
    ensures forall i :: 0 <= i < |s| ==> '0' <= s[i] <= '9'
  {
    if n < 10 then ["0123456789"[n]] else Decimal(n / 10) + ["0123456789"[n % 10]]
  }

  /** Every record of `recs` is a proper dict. */
  predicate AllKeyed(recs: seq<Record>)
  {
    forall x :: x in recs ==> Keyed(x)
  }

  /** Every record of every collection is a proper dict, and so is the
      collection set itself. */
  predicate WellFormed(cs: Collections)
  {
    Keyed(cs) && RecordsKeyed(cs)
  }

  /** Every collection's records are proper dicts. */
  predicate RecordsKeyed(cs: Collections)
  {
    |cs| == 0 || (AllKeyed(cs[0].1) && RecordsKeyed(cs[1..]))
  }

  /** Replacing or adding a collection of proper dicts keeps a collection
      set well formed. */
  lemma {:induction false} SetKeepsWellFormed(cs: Collections, name: string, recs: seq<Record>)
    ensures WellFormed(cs) && AllKeyed(recs) ==> WellFormed(Set(cs, name, recs))
  {
    if |cs| > 0 && cs[0].0 != name {
      SetKeepsWellFormed(cs[1..], name, recs);
      assert Set(cs, name, recs)[1..] == Set(cs[1..], name, recs);
    }
  }

  /** The records of a collection in a well-formed set are proper dicts. */
  lemma {:induction false} GetOfWellFormed(cs: Collections, name: string)
    requires WellFormed(cs)
    requires name in Keys(cs)
    ensures AllKeyed(Get(cs, name).value)
  {
    if cs[0].0 != name {
      GetOfWellFormed(cs[1..], name);
    }
  }
}

=== FILE: Naming.dfy ===
/**
  Collection names encode a path of keys joined with '_'. The reconstructor
  reads them back with Python's `str.split('_')` and `'_'.join(...)`,
  modelled here with the two round trips that make the encoding readable.
 */
module Naming {

  /** `s.split('_')`: the maximal '_'-free pieces, empty ones included, so
      there is always at least one (`"".split('_') == [""]`). */
  function Split(s: string): (r: seq<string>)
    ensures |r| >= 1
    ensures forall i :: 0 <= i < |r| ==> '_' !in r[i]
  {
    if |s| == 0 then [""]
    else
      var rest := Split(s[1..]);
      if s[0] == '_' then [""] + rest else [[s[0]] + rest[0]] + rest[1..]
  }

  /** A name splits into a single piece exactly when it has no separator. */
  lemma {:induction false} SplitOnePiece(s: string)
    ensures |Split(s)| == 1 <==> '_' !in s
  {
    if |s| > 0 {
      SplitOnePiece(s[1..]);
      assert s == [s[0]] + s[1..];
    }
  }

  /** No piece holds the separator. */
  predicate Plain(parts: seq<string>)
  {
    forall i :: 0 <= i < |parts| ==> '_' !in parts[i]
  }

  /** `'_'.join(parts)`; the empty list joins to "". */
  function Join(parts: seq<string>): string
  {
    if |parts| == 0 then ""
    else if |parts| == 1 then parts[0]
    else parts[0] + "_" + Join(parts[1..])
  }

  /** Joining the pieces of a split gives the name back. */
  lemma {:induction false} JoinSplit(s: string)
    ensures Join(Split(s)) == s
  {
    if |s| > 0 {
      var rest := Split(s[1..]);
      JoinSplit(s[1..]);
      if s[0] == '_' {
        assert Join([""] + rest) == "" + "_" + Join(rest) by {
          assert ([""] + rest)[1..] == rest;
        }
        assert s == [s[0]] + s[1..];
      } else if |rest| == 1 {
        assert s == [s[0]] + s[1..];
      } else {
        var parts := [[s[0]] + rest[0]] + rest[1..];
        assert parts[1..] == rest[1..];
        assert Join(rest) == rest[0] + "_" + Join(rest[1..]);
        assert s == [s[0]] + s[1..];
      }
    }
  }

  /** A name without the separator is a single piece. */
  lemma {:induction false} SplitPlain(w: string)
    requires '_' !in w
    ensures Split(w) == [w]
  {
    if |w| > 0 {
      SplitPlain(w[1..]);
      assert w == [w[0]] + w[1..];
    }
  }

  /** Splitting after a leading piece and separator. */
  lemma {:induction false} SplitAfter(w: string, t: string)
    requires '_' !in w
    ensures Split(w + "_" + t) == [w] + Split(t)
  {
    if |w| == 0 {
      assert w + "_" + t == "_" + t && ("_" + t)[1..] == t;
    } else {
      assert (w + "_" + t)[1..] == w[1..] + "_" + t;
      SplitAfter(w[1..], t);
      assert w == [w[0]] + w[1..];
    }
  }

  /** Splitting a join of plain pieces gives the pieces back. */
  lemma {:induction false} SplitJoin(parts: seq<string>)
    requires |parts| >= 1 && Plain(parts)
    ensures Split(Join(parts)) == parts
  {
    if |parts| == 1 {
      SplitPlain(parts[0]);
    } else {
      SplitJoin(parts[1..]);
      SplitAfter(parts[0], Join(parts[1..]));
      assert parts == [parts[0]] + parts[1..];
    }
  }

  /** `len(name.split('_'))`: how deep the name sits. */
  function Depth(name: string): (d: nat)
    ensures d >= 1
    ensures d == 1 <==> '_' !in name
  {
    SplitOnePiece(name);
    |Split(name)|
  }

  /** `name.split('_')[-1]`: the stretch of the name after its last '_',
      the whole name when it has none. */
  function LastSegment(name: string): (r: string)
    ensures '_' !in r && |r| <= |name| && name[|name| - |r|..] == r
    ensures |r| < |name| ==> name[|name| - |r| - 1] == '_'
    ensures |r| == |name| <==> '_' !in name
  {
    var parts := Split(name);
    JoinSplit(name);
    if |parts| > 1 then
      JoinLast(parts);
      parts[|parts| - 1]
    else
      parts[0]
  }

  /** `'_'.join(name.split('_')[:-1])`: the name one level up, which is
      the stretch before its last '_'; "" for a name of one piece. */
  function ParentPath(name: string): (r: string)
    ensures '_' in name ==> |r| < |name| && name[..|r|] == r && name[|r|] == '_' && '_' !in name[|r| + 1..]
    ensures '_' !in name ==> r == ""
  {
    var parts := Split(name);
    JoinSplit(name);
    if |parts| > 1 then
      var up := Join(parts[..|parts| - 1]);
      JoinLast(parts);
      assert name == up + "_" + parts[|parts| - 1];
      assert name[..|up|] == up && name[|up| + 1..] == parts[|parts| - 1];
      up
    else
      ""
  }

  /** A name is its parent path and its last piece, joined by '_' unless it
      has only one piece; the parent path is therefore strictly shorter
      than any non-empty name, and the last piece has no separator. */
  lemma {:induction false} ParentAndLast(name: string)
    ensures '_' !in LastSegment(name)
    ensures Depth(name) == 1 ==> ParentPath(name) == "" && LastSegment(name) == name
    ensures Depth(name) > 1 ==> name == ParentPath(name) + "_" + LastSegment(name)
    ensures name != "" ==> |ParentPath(name)| < |name|
  {
    var parts := Split(name);
    var n := |parts|;
    JoinSplit(name);
    if n > 1 {
      JoinLast(parts);
    }
  }

  /** Joining with the last piece split off. */
  lemma {:induction false} JoinLast(parts: seq<string>)
    requires |parts| > 1
    ensures Join(parts) == Join(parts[..|parts| - 1]) + "_" + parts[|parts| - 1]
  {
    if |parts| > 2 {
      JoinLast(parts[1..]);
      assert parts[1..][..|parts| - 2] == parts[..|parts| - 1][1..];
    }
  }

  /** Adding a plain piece below a name: it becomes the last piece, the
      name becomes the parent path, and the depth grows by one. */
  lemma AppendSegment(prefix: string, key: string)
    requires '_' !in key
    ensures Split(prefix + "_" + key) == Split(prefix) + [key]
    ensures LastSegment(prefix + "_" + key) == key
    ensures ParentPath(prefix + "_" + key) == prefix
    ensures Depth(prefix + "_" + key) == Depth(prefix) + 1
  {
    var parts := Split(prefix) + [key];
    JoinLast(parts);
    assert parts[..|parts| - 1] == Split(prefix);
    JoinSplit(prefix);
    SplitJoin(parts);
  }
}

=== FILE: ReconstructExamples.dfy ===
/**
  Worked examples of `reconstruct_json` on small collection sets, with the
  names built from plain keys and the records left symbolic.
 */
module ReconstructExamples {
  import opened Dicts
  import opened Json
  import opened Naming
  import opened Flattener
  import opened Cleaner
  import opened Reconstructor

  /** The names the flattener builds for an object member with a plain key
      read back as the reconstructor expects: one piece deeper than the
      current name, whose parent path is the current name, and whose
      attribute is the key again (plural for several records). */
  lemma ChildNameParses(prefix: string, key: string, data: seq<Record>)
    requires '_' !in key
    ensures prefix == "" ==> Depth(ChildName(prefix, key)) == 1 && ParentPath(ChildName(prefix, key)) == ""
    ensures prefix != "" ==>
              && Depth(ChildName(prefix, key)) == Depth(prefix) + 1
              && ParentPath(ChildName(prefix, key)) == prefix
    ensures AttributeName(ChildName(prefix, key), data) == key + (if |data| > 1 then "s" else "")
  {
    if prefix == "" {
      SplitPlain(key);
    } else {
      AppendSegment(prefix, key);
      AttributeOfChild(prefix, key, data);
    }
  }

  /** A plain key is a name of one piece, and below it a plain key makes a
      name of two pieces whose parent is the first key. */
  lemma TwoLevelNames(p: string, k: string)
    requires '_' !in p && '_' !in k
    ensures Depth(p) == 1 && ParentPath(p) == ""
    ensures Depth(p + "_" + k) == 2 && ParentPath(p + "_" + k) == p && LastSegment(p + "_" + k) == k
    ensures p + "_" + k != p
  {
    SplitPlain(p);
    AppendSegment(p, k);
    assert |p + "_" + k| > |p|;
  }

  /** What a pass over a parent and its single child finds, in either
      order: the deeper name is the child, the other its parent, and the
      child record, stripped of its id, fits onto the parent record. */
  lemma PairPassFacts(all: Collections, p: string, k: string, q: Record, c: Record)
    requires '_' !in p && '_' !in k && "id" in Keys(c)
    requires all == [(p, [q]), (p + "_" + k, [c])] || all == [(p + "_" + k, [c]), (p, [q])]
    ensures Keyed(all) && |all| == 2
    ensures GetDeepestObj(KeyList(all)) == Ok(p + "_" + k)
    ensures Lookup(all, p + "_" + k) == Ok([c]) && Lookup(all, p) == Ok([q])
    ensures GetParentFilename(p + "_" + k, KeyList(all)) == Ok(p)
    ensures AttributeName(p + "_" + k, [c]) == k
  {
    TwoLevelNames(p, k);
    var child := p + "_" + k;
    if all == [(p, [q]), (child, [c])] {
      Pair(p, [q], child, [c]);
      DeepestOfTwo(p, child);
    } else {
      Pair(child, [c], p, [q]);
      DeepestOfTwo(child, p);
    }
  }

  /** The one pass over a parent and its single child, in either order:
      the child record, stripped of its id, lands under the key on the
      parent record, and the child collection goes. */
  lemma PassOverPair(all: Collections, p: string, k: string, q: Record, c: Record)
    requires '_' !in p && '_' !in k && "id" in Keys(c)
    requires all == [(p, [q]), (p + "_" + k, [c])] || all == [(p + "_" + k, [c]), (p, [q])]
    ensures Keyed(all) && |all| == 2
    ensures LoopBody(all) == Ok(Pass([(p, [Set(q, k, Obj(CleanRecord(c).value))])], KeyList(all), p + "_" + k, p))
  {
    PairPassFacts(all, p, k, q, c);
    TwoLevelNames(p, k);
    var child := p + "_" + k;
    var c' := CleanRecord(c).value;
    var merged := [Set(q, k, Obj(c'))];
    SetThenRemove(p, [q], child, [c], merged);
    assert Remove(Set(all, p, merged), child) == [(p, merged)];
    CleanOne(c);
    MergeOne(q, c', k, p);
    PassOf(all, child, [c], p, [q], [c'], merged);
  }

  /** Parent first: the result is the parent collection renamed with "s",
      each record holding its child under the child's key. The root
      collection is never cleaned, so its own id stays. */
  lemma ParentFirstRebuilds(p: string, k: string, q: Record, c: Record)
    requires '_' !in p && '_' !in k && "id" in Keys(c)
    ensures Keyed([(p, [q]), (p + "_" + k, [c])])
    ensures ReconstructJson([(p, [q]), (p + "_" + k, [c])])
            == Ok([(p + "s", [Set(q, k, Obj(CleanRecord(c).value))])])
  {
    var all := [(p, [q]), (p + "_" + k, [c])];
    PassOverPair(all, p, k, q, c);
    var merged := [Set(q, k, Obj(CleanRecord(c).value))];
    Pair(p, [q], p + "_" + k, [c]);
    LoopStep(all, None);
    assert Loop(all, None) == Ok(([(p, merged)], Some([p, p + "_" + k])));
    assert Lookup([(p, merged)], p) == Ok(merged);
    assert Remove([(p, merged)], p) == [];
  }

  /** Child first: the loop merges exactly as before, but the rename reads
      the first name of the last snapshot, which is the child just deleted,
      so `pop` raises KeyError. */
  lemma ChildFirstLosesResult(p: string, k: string, q: Record, c: Record)
    requires '_' !in p && '_' !in k && "id" in Keys(c)
    ensures Keyed([(p + "_" + k, [c]), (p, [q])])
    ensures ReconstructJson([(p + "_" + k, [c]), (p, [q])]) == Err(KeyError(p + "_" + k))
    ensures RenameSurvivor([(p + "_" + k, [c]), (p, [q])])
            == Ok([(p + "s", [Set(q, k, Obj(CleanRecord(c).value))])])
  {
    var all := [(p + "_" + k, [c]), (p, [q])];
    PassOverPair(all, p, k, q, c);
    var merged := [Set(q, k, Obj(CleanRecord(c).value))];
    TwoLevelNames(p, k);
    Pair(p + "_" + k, [c], p, [q]);
    LoopStep(all, None);
    assert Loop(all, None) == Ok(([(p, merged)], Some([p + "_" + k, p])));
    assert Lookup([(p, merged)], p + "_" + k) == Err(KeyError(p + "_" + k));
  }

  /** Two top-level collections, as flattening and cleaning leave for a
      root object with two object members of several scalars each, under
      keys without `_`, and no empty-list member: both
      are one piece deep, the first is taken as the child, its parent "" is
      not a collection, and the search ends in NoParent. */
  lemma TopLevelPairHasNoParent(a: string, b: string, x: seq<Record>, y: seq<Record>)
    requires '_' !in a && '_' !in b && a != "" && b != "" && a != b
    ensures Keyed([(a, x), (b, y)])
    ensures ReconstructJson([(a, x), (b, y)]) == Err(NoParent(""))
  {
    var all := [(a, x), (b, y)];
    SplitPlain(a);
    SplitPlain(b);
    Pair(a, x, b, y);
    DeepestOfTwo(a, b);
    OnePieceHasNoParent(a, [a, b]);
    assert LoopBody(all) == Err(NoParent(""));
  }

  /** An empty-list member of the root object names the collection "": its
      list key without the last character, below no prefix. The collection
      stays empty, so `clean` keeps it, and a one-piece name then finds ""
      as its parent. */
  lemma EmptyListOpensUnnamedCollection(a: string)
    requires '_' !in a && a != ""
    ensures Flatten(Obj([("s", Arr([]))])) == Ok([("", [])])
    ensures Clean([("", [])]) == [("", [])]
    ensures GetParentFilename(a, ["", a]) == Ok("")
  {
    SplitPlain(a);
  }
}

=== FILE: Reconstructor.dfy ===
/**
  `reconstruct_json(all_data)` (reconstruct_json.py): fold the deepest
  collection into its parent until one is left, then rename that one.
  Every Python exception the loop can raise is an explicit `Err`.
 */
module Reconstructor {
  import opened Dicts
  import opened Json
  import opened Naming

  /** `d[k]` for a collection, with Python's KeyError. */
  function Lookup(d: Collections, k: string): (r: Result<seq<Record>>)
    ensures r.Ok? <==> k in Keys(d)
    ensures r.Err? ==> r.error == KeyError(k)
    ensures r.Ok? ==> (k, r.value) in d
  {
    match Get(d, k)
    case None => Err(KeyError(k))
    case Some(recs) => Ok(recs)
  }

  // ---------------------------------------------------------------------
  // get_deepest_obj

  /** The loop of `get_deepest_obj` from position `idx` on, with the best
      depth and position so far. */
  function DeepestScan(names: seq<string>, idx: nat, maxDepth: nat, maxIndex: nat): (r: nat)
    requires idx <= |names| && maxIndex < |names|
    ensures r < |names|
    decreases |names| - idx
  {
    if idx == |names| then maxIndex
    else if Depth(names[idx]) > maxDepth then DeepestScan(names, idx + 1, Depth(names[idx]), idx)
    else DeepestScan(names, idx + 1, maxDepth, maxIndex)
  }

  /** `get_deepest_obj(files_list)`: a name of greatest depth, the first
      such in list order (the comparison is strict); IndexError on an empty
      list. */
  function GetDeepestObj(names: seq<string>): (r: Result<string>)
    ensures r.Ok? <==> |names| > 0
    ensures r.Err? ==> r.error == IndexError("files_list", 0)
    ensures r.Ok? ==> FirstDeepest(names, r.value)
  {
    if |names| == 0 then Err(IndexError("files_list", 0))
    else
      ScanFindsFirstDeepest(names, 0, 0, 0);
      Ok(names[DeepestScan(names, 0, 0, 0)])
  }

  /** `child` is the first name of greatest depth among `names`. */
  ghost predicate FirstDeepest(names: seq<string>, child: string)
  {
    exists i :: 0 <= i < |names| && child == names[i]
             && (forall j :: 0 <= j < |names| ==> Depth(names[j]) <= Depth(names[i]))
             && (forall j :: 0 <= j < i ==> Depth(names[j]) < Depth(names[i]))
  }

  /** What the scan keeps: the best position holds the greatest depth seen
      so far, and every earlier position is strictly shallower. */
  ghost predicate ScanState(names: seq<string>, idx: nat, maxDepth: nat, maxIndex: nat)
    requires idx <= |names| && maxIndex < |names|
  {
    && (idx == 0 ==> maxDepth == 0 && maxIndex == 0)
    && (idx > 0 ==> maxIndex < idx && maxDepth == Depth(names[maxIndex]))
    && (forall j :: 0 <= j < idx ==> Depth(names[j]) <= maxDepth)
    && (forall j :: 0 <= j < maxIndex ==> Depth(names[j]) < maxDepth)
  }

  /** The scan ends on the first position of greatest depth. */
  lemma {:induction false} ScanFindsFirstDeepest(names: seq<string>, idx: nat, maxDepth: nat, maxIndex: nat)
    requires idx <= |names| && maxIndex < |names|
    requires ScanState(names, idx, maxDepth, maxIndex)
    ensures var i := DeepestScan(names, idx, maxDepth, maxIndex);
            && (forall j :: 0 <= j < |names| ==> Depth(names[j]) <= Depth(names[i]))
            && (forall j :: 0 <= j < i ==> Depth(names[j]) < Depth(names[i]))
    decreases |names| - idx
  {
    if idx == |names| {
      if idx == 0 {
        assert false;
      }
    } else if Depth(names[idx]) > maxDepth {
      ScanFindsFirstDeepest(names, idx + 1, Depth(names[idx]), idx);
    } else {
      ScanFindsFirstDeepest(names, idx + 1, maxDepth, maxIndex);
    }
  }

  // ---------------------------------------------------------------------
  // get_attribute_name

  /** `get_attribute_name(filename, data)`: the last piece of the name,
      plural when the collection has more than one record. */
  function AttributeName(filename: string, data: seq<Record>): (r: string)
    ensures '_' !in r
    ensures |data| <= 1 ==> |r| <= |filename| && r == filename[|filename| - |r|..]
    ensures |data| > 1 ==> 0 < |r| <= |filename| + 1 && r[|r| - 1] == 's'
                           && r[..|r| - 1] == filename[|filename| - (|r| - 1)..]
  {
    LastSegment(filename) + (if |data| > 1 then "s" else "")
  }

  /** For a name built by joining a plain key below a prefix, the attribute
      is that key again, with "s" for more than one record. */
  lemma AttributeOfChild(prefix: string, key: string, data: seq<Record>)
    requires '_' !in key
    ensures |data| > 1 ==> AttributeName(prefix + "_" + key, data) == key + "s"
    ensures |data| <= 1 ==> AttributeName(prefix + "_" + key, data) == key
  {
    AppendSegment(prefix, key);
  }

  /** A name without `_` is its own attribute name, plus the plural "s"
      when the data holds several records. */
  lemma AttributeOfOnePiece(name: string, data: seq<Record>)
    requires '_' !in name
    ensures AttributeName(name, data) == name + (if |data| > 1 then "s" else "")
  {
  }

  // ---------------------------------------------------------------------
  // get_parent_filename

  /** `get_parent_filename(filename, remaining_keys)`: strip the last piece
      until the name is one of the keys. The parent of "" is "" again, so
      when "" is not a key the Python recursion never ends: NoParent. */
  function GetParentFilename(filename: string, keys: seq<string>): (r: Result<string>)
    ensures r.Ok? ==> r.value in keys
    ensures r.Err? ==> r.error == NoParent("")
    decreases |filename|
  {
    var parent := ParentPath(filename);
    if parent in keys then Ok(parent)
    else if filename == "" then Err(NoParent(filename))
    else
      ParentAndLast(filename);
      GetParentFilename(parent, keys)
  }

  /** The ancestor of `name` made of its first `k` pieces; "" for `k == 0`. */
  function Ancestor(name: string, k: nat): string
    requires k < Depth(name)
  {
    Join(Split(name)[..k])
  }

  /** The ancestors of a parent path are the ancestors of the name. */
  lemma ParentAncestors(name: string, k: nat)
    requires Depth(name) > 1 && k < Depth(name) - 1
    ensures k < Depth(ParentPath(name))
    ensures Ancestor(ParentPath(name), k) == Ancestor(name, k)
  {
    var parts := Split(name);
    var up := parts[..|parts| - 1];
    assert Plain(up) by {
      forall i | 0 <= i < |up| ensures '_' !in up[i] {
        assert up[i] == parts[i];
      }
    }
    SplitJoin(up);
    assert up[..k] == parts[..k];
  }

  /** The ancestor one level up is the parent path. */
  lemma LastAncestor(name: string)
    ensures Ancestor(name, Depth(name) - 1) == ParentPath(name)
  {
  }

  /** A name of one piece whose parent "" is absent has no parent. */
  lemma OnePieceHasNoParent(filename: string, keys: seq<string>)
    requires Depth(filename) == 1 && "" !in keys
    ensures GetParentFilename(filename, keys) == Err(NoParent(""))
  {
    ParentAndLast(filename);
    if filename != "" {
      assert Split("") == [""];
      assert ParentPath("") == "";
    }
  }

  /** Below a name of several pieces, an absent parent path sends the
      search one level up, where the same ancestors remain. */
  lemma ParentStep(filename: string, keys: seq<string>)
    requires Depth(filename) > 1 && ParentPath(filename) !in keys
    ensures GetParentFilename(filename, keys) == GetParentFilename(ParentPath(filename), keys)
    ensures Depth(ParentPath(filename)) == Depth(filename) - 1
    ensures forall k :: 0 <= k < Depth(filename) - 1 ==> Ancestor(ParentPath(filename), k) == Ancestor(filename, k)
  {
    ParentAndLast(filename);
    ParentDepth(filename);
    forall k | 0 <= k < Depth(filename) - 1
      ensures Ancestor(ParentPath(filename), k) == Ancestor(filename, k)
    {
      ParentAncestors(filename, k);
    }
  }

  /** `get_parent_filename` fails exactly when no proper ancestor of the
      name (down to "") is present. */
  lemma {:induction false} ParentFound(filename: string, keys: seq<string>)
    ensures GetParentFilename(filename, keys).Ok? <==>
              exists k :: 0 <= k < Depth(filename) && Ancestor(filename, k) in keys
    decreases |filename|
  {
    var n := Depth(filename);
    var parent := ParentPath(filename);
    LastAncestor(filename);
    if parent in keys {
      assert Ancestor(filename, n - 1) in keys;
    } else if n == 1 {
      OnePieceHasNoParent(filename, keys);
      forall k | 0 <= k < n
        ensures Ancestor(filename, k) !in keys
      {
        assert k == n - 1;
      }
    } else {
      ParentStep(filename, keys);
      ParentAndLast(filename);
      ParentFound(parent, keys);
      AncestorsLift(filename, keys);
    }
  }

  /** When the parent path is absent, the name has a present proper
      ancestor exactly when its parent path has one. */
  lemma AncestorsLift(filename: string, keys: seq<string>)
    requires Depth(filename) > 1 && ParentPath(filename) !in keys
    ensures (exists k :: 0 <= k < Depth(ParentPath(filename)) && Ancestor(ParentPath(filename), k) in keys)
        <==> (exists k :: 0 <= k < Depth(filename) && Ancestor(filename, k) in keys)
  {
    var n := Depth(filename);
    var parent := ParentPath(filename);
    ParentStep(filename, keys);
    LastAncestor(filename);
    assert Depth(parent) == n - 1;
    if k :| 0 <= k < n - 1 && Ancestor(parent, k) in keys {
      assert Ancestor(filename, k) in keys;
    }
    if k :| 0 <= k < n && Ancestor(filename, k) in keys {
      assert k != n - 1;
      assert Ancestor(parent, k) in keys;
    }
  }

  /** What `get_parent_filename` returns is the longest proper ancestor of
      the name that is present. */
  lemma {:induction false} ParentIsLongestPresentAncestor(filename: string, keys: seq<string>)
    ensures GetParentFilename(filename, keys).Ok? ==>
              LongestPresentAncestor(keys, filename, GetParentFilename(filename, keys).value)
    decreases |filename|
  {
    var n := Depth(filename);
    var parent := ParentPath(filename);
    LastAncestor(filename);
    if parent in keys {
      assert GetParentFilename(filename, keys).value == Ancestor(filename, n - 1);
    } else if n == 1 {
      OnePieceHasNoParent(filename, keys);
    } else {
      ParentStep(filename, keys);
      ParentAndLast(filename);
      ParentIsLongestPresentAncestor(parent, keys);
      if GetParentFilename(parent, keys).Ok? {
        LongestLifts(filename, keys, GetParentFilename(parent, keys).value);
      }
    }
  }

  /** When the parent path is absent, the longest present proper ancestor
      of the parent path is also the name's. */
  lemma LongestLifts(filename: string, keys: seq<string>, found: string)
    requires Depth(filename) > 1 && ParentPath(filename) !in keys
    requires LongestPresentAncestor(keys, ParentPath(filename), found)
    ensures LongestPresentAncestor(keys, filename, found)
  {
    var n := Depth(filename);
    var parent := ParentPath(filename);
    ParentStep(filename, keys);
    LastAncestor(filename);
    var k :| 0 <= k < n - 1 && found == Ancestor(parent, k) && found in keys
             && forall k' :: k < k' < n - 1 ==> Ancestor(parent, k') !in keys;
    forall k' | k < k' < n
      ensures Ancestor(filename, k') !in keys
    {
      if k' < n - 1 {
        assert Ancestor(parent, k') == Ancestor(filename, k');
      }
    }
    assert found == Ancestor(filename, k);
  }

  /** A name of several pieces has one piece more than its parent path. */
  lemma ParentDepth(name: string)
    requires Depth(name) > 1
    ensures Depth(ParentPath(name)) == Depth(name) - 1
  {
    var parts := Split(name);
    var up := parts[..|parts| - 1];
    assert Plain(up) by {
      forall i | 0 <= i < |up| ensures '_' !in up[i] {
        assert up[i] == parts[i];
      }
    }
    SplitJoin(up);
  }

  // ---------------------------------------------------------------------
  // clean_obj

  /** One record of `clean_obj`: drop "__index" if present, then "id",
      which must be there. */
  function CleanRecord(r: Record): (c: Result<Record>)
    ensures c.Ok? <==> "id" in Keys(r)
    ensures c.Err? ==> c.error == KeyError("id")
    ensures c.Ok? ==> Keys(c.value) == Keys(r) - {"id", "__index"}
    ensures c.Ok? ==> forall k :: k != "id" && k != "__index" ==> Get(c.value, k) == Get(r, k)
    ensures c.Ok? && Keyed(r) ==> Keyed(c.value)
  {
    var r1 := if "__index" in Keys(r) then Remove(r, "__index") else r;
    if "id" !in Keys(r1) then Err(KeyError("id")) else Ok(Remove(r1, "id"))
  }

  /** `clean_obj(data)`: strip the linkage fields from every record, in
      order; KeyError('id') at the first record without an id. */
  function CleanObj(data: seq<Record>): (r: Result<seq<Record>>)
    ensures r.Ok? ==> |r.value| == |data|
    ensures r.Err? ==> r.error == KeyError("id")
  {
    if |data| == 0 then Ok([])
    else
      var first :- CleanRecord(data[0]);
      var rest :- CleanObj(data[1..]);
      Ok([first] + rest)
  }

  /** `clean_obj` succeeds exactly when every record has an id; then the
      records keep their order and every field except the linkage ones. */
  lemma {:induction false} CleanObjSpec(data: seq<Record>)
    ensures CleanObj(data).Ok? <==> forall i :: 0 <= i < |data| ==> "id" in Keys(data[i])
    ensures CleanObj(data).Err? ==> CleanObj(data).error == KeyError("id")
    ensures CleanObj(data).Ok? ==>
              && |CleanObj(data).value| == |data|
              && forall i :: 0 <= i < |data| ==> CleanRecord(data[i]) == Ok(CleanObj(data).value[i])
  {
    if |data| > 0 {
      CleanObjSpec(data[1..]);
      if CleanObj(data).Ok? {
        var rest := CleanObj(data[1..]).value;
        var all := CleanObj(data).value;
        assert all == [CleanRecord(data[0]).value] + rest;
        forall i | 1 <= i < |data|
          ensures CleanRecord(data[i]) == Ok(all[i])
        {
          assert data[1..][i - 1] == data[i] && all[i] == rest[i - 1];
        }
      } else if CleanRecord(data[0]).Ok? {
        var i :| 0 <= i < |data| - 1 && "id" !in Keys(data[1..][i]);
        assert data[i + 1] == data[1..][i];
      }
    }
  }

  /** No linkage field survives `clean_obj`. */
  lemma NoLinkageLeft(data: seq<Record>, i: nat)
    requires CleanObj(data).Ok? && i < |CleanObj(data).value|
    ensures "id" !in Keys(CleanObj(data).value[i]) && "__index" !in Keys(CleanObj(data).value[i])
  {
    CleanObjSpec(data);
  }

  // ---------------------------------------------------------------------
  // merge

  /** A list of records as a JSON array of objects. */
  function Objects(recs: seq<Record>): (vs: seq<Value>)
    ensures |vs| == |recs|
    ensures forall i :: 0 <= i < |recs| ==> vs[i] == Obj(recs[i])
  {
    if |recs| == 0 then [] else [Obj(recs[0])] + Objects(recs[1..])
  }

  /** The loop `for idx, val in enumerate(child_data): parent_data[idx][attribute_name] = val`
      from position `idx` on. */
  function ZipFrom(parent: seq<Record>, child: seq<Record>, attr: string, idx: nat): (r: seq<Record>)
    requires |child| <= |parent| && idx <= |child|
    ensures |r| == |parent|
    ensures forall i :: 0 <= i < idx ==> r[i] == parent[i]
    decreases |child| - idx
  {
    if idx == |child| then parent
    else ZipFrom(parent[idx := Set(parent[idx], attr, Obj(child[idx]))], child, attr, idx + 1)
  }

  /** The zip loop sets the attribute of every parent record that has a
      child record at the same position, and leaves the rest alone. */
  lemma {:induction false} ZipSpec(parent: seq<Record>, child: seq<Record>, attr: string, idx: nat)
    requires |child| <= |parent| && idx <= |child|
    ensures |ZipFrom(parent, child, attr, idx)| == |parent|
    ensures forall i :: 0 <= i < idx ==> ZipFrom(parent, child, attr, idx)[i] == parent[i]
    ensures forall i :: idx <= i < |child| ==>
              ZipFrom(parent, child, attr, idx)[i] == Set(parent[i], attr, Obj(child[i]))
    ensures forall i :: |child| <= i < |parent| ==> ZipFrom(parent, child, attr, idx)[i] == parent[i]
    decreases |child| - idx
  {
    if idx < |child| {
      var step := parent[idx := Set(parent[idx], attr, Obj(child[idx]))];
      ZipSpec(step, child, attr, idx + 1);
      assert ZipFrom(parent, child, attr, idx) == ZipFrom(step, child, attr, idx + 1);
    }
  }

  /** Lines 106-110: a child longer than its parent goes whole under the
      attribute of the parent's last record (IndexError when the parent is
      empty); otherwise child record i goes onto parent record i. */
  function Merge(parent: seq<Record>, child: seq<Record>, attr: string, parentKey: string)
    : (r: Result<seq<Record>>)
    ensures r.Err? <==> |parent| == 0 && |child| > 0
    ensures r.Ok? ==> |r.value| == |parent|
  {
    if |parent| < |child| then
      if |parent| == 0 then Err(IndexError(parentKey, -1))
      else Ok(parent[|parent| - 1 := Set(parent[|parent| - 1], attr, Arr(Objects(child)))])
    else Ok(ZipFrom(parent, child, attr, 0))
  }

  /** The merge keeps the parent's length, fails only on an empty parent
      below a non-empty child, and changes exactly the records named by
      the rule. */
  lemma MergeSpec(parent: seq<Record>, child: seq<Record>, attr: string, parentKey: string)
    ensures Merge(parent, child, attr, parentKey).Err? <==> |parent| == 0 && |child| > 0
    ensures Merge(parent, child, attr, parentKey).Err? ==>
              Merge(parent, child, attr, parentKey).error == IndexError(parentKey, -1)
    ensures Merge(parent, child, attr, parentKey).Ok? ==> |Merge(parent, child, attr, parentKey).value| == |parent|
    ensures 0 < |parent| < |child| ==>
              var r := Merge(parent, child, attr, parentKey).value;
              && r[|parent| - 1] == Set(parent[|parent| - 1], attr, Arr(Objects(child)))
              && forall i :: 0 <= i < |parent| - 1 ==> r[i] == parent[i]
    ensures |child| <= |parent| ==>
              var r := Merge(parent, child, attr, parentKey).value;
              && (forall i :: 0 <= i < |child| ==> r[i] == Set(parent[i], attr, Obj(child[i])))
              && (forall i :: |child| <= i < |parent| ==> r[i] == parent[i])
  {
    if |child| <= |parent| {
      ZipSpec(parent, child, attr, 0);
    }
  }

  // ---------------------------------------------------------------------
  // reconstruct_json

  /** What one pass of the loop produced: the new collection set, the
      `remaining_keys` snapshot it started from, and the child and parent
      it chose. */
  datatype Pass = Pass(next: Collections, remaining: seq<string>, child: string, parent: string)

  /** Lines 100-111 once the child and its parent are chosen: look up the
      parent, clean the child's records, merge them into the parent's, store
      the merge under the parent's name and delete the child. */
  function FoldInto(all: Collections, child: string, childData: seq<Record>, parent: string)
    : (r: Result<Collections>)
    requires Keyed(all) && Get(all, child) == Some(childData)
    ensures r.Ok? ==> Keyed(r.value) && |r.value| == |all| - 1
    ensures r.Ok? ==> Keys(r.value) == Keys(all) - {child}
    ensures r.Ok? ==> forall k :: k != child && k != parent ==> Get(r.value, k) == Get(all, k)
    ensures r.Ok? <==>
              && parent in Keys(all)
              && CleanObj(childData).Ok?
              && Merge(Get(all, parent).value, CleanObj(childData).value, AttributeName(child, childData), parent).Ok?
    ensures r.Ok? ==> MergedInto(all, r.value, child, parent)
  {
    var parentData :- Lookup(all, parent);
    var cleaned :- CleanObj(childData);
    var merged :- Merge(parentData, cleaned, AttributeName(child, childData), parent);
    StoreThenDelete(all, parent, merged, child);
    Ok(Remove(Set(all, parent, merged), child))
  }

  /** `parent` is the longest proper ancestor of `child` among `names`. */
  ghost predicate LongestPresentAncestor(names: seq<string>, child: string, parent: string)
  {
    exists k :: 0 <= k < Depth(child) && parent == Ancestor(child, k) && parent in names
             && forall k' :: k < k' < Depth(child) ==> Ancestor(child, k') !in names
  }

  /** `next` holds, under `parent`, the merge of the parent's records with
      the cleaned records of `child`, both taken from `all`; when the two
      names coincide the deletion of the child removes that merge again. */
  ghost predicate MergedInto(all: Collections, next: Collections, child: string, parent: string)
  {
    && child in Keys(all) && parent in Keys(all)
    && var childData := Get(all, child).value;
       && CleanObj(childData).Ok?
       && var merged := Merge(Get(all, parent).value, CleanObj(childData).value,
                              AttributeName(child, childData), parent);
          && merged.Ok?
          && (parent != child ==> Get(next, parent) == Some(merged.value))
  }

  /** One pass of the `while len(all_data) > 1` loop (lines 95-111): one
      collection fewer, the child gone, and nothing changed but the parent.
      `PassChoosesAndMerges` says which child and parent it picks and what
      the parent then holds. */
  function LoopBody(all: Collections): (r: Result<Pass>)
    requires Keyed(all) && |all| > 1
    ensures r.Ok? ==> Keyed(r.value.next) && |r.value.next| == |all| - 1 && |r.value.remaining| == |all|
    ensures r.Ok? ==> Keys(r.value.next) == Keys(all) - {r.value.child}
    ensures r.Ok? ==> forall k :: k != r.value.child && k != r.value.parent ==> Get(r.value.next, k) == Get(all, k)
  {
    var remaining := KeyList(all);
    // never empty here, so get_deepest_obj cannot raise
    var child := GetDeepestObj(remaining).value;
    var childData :- Lookup(all, child);
    var parent :- GetParentFilename(child, remaining);
    var next :- FoldInto(all, child, childData, parent);
    Ok(Pass(next, remaining, child, parent))
  }

  /** A pass fails exactly when its step does: the first deepest name is
      always present, so the pass succeeds iff that child finds a parent
      and folding it in succeeds. A missing parent is `NoParent("")`; a
      failed fold keeps the fold's error; a success is the fold's result
      with the snapshot, child and parent. */
  lemma PassSucceedsExactly(all: Collections)
    requires Keyed(all) && |all| > 1
    ensures GetDeepestObj(KeyList(all)).Ok?
    ensures var c := GetDeepestObj(KeyList(all)).value;
            var p := GetParentFilename(c, KeyList(all));
            && c in Keys(all)
            && (LoopBody(all).Ok? <==> p.Ok? && FoldInto(all, c, Get(all, c).value, p.value).Ok?)
            && (p.Err? ==> LoopBody(all) == Err(NoParent("")))
            && (p.Ok? && FoldInto(all, c, Get(all, c).value, p.value).Err? ==>
                  LoopBody(all) == Err(FoldInto(all, c, Get(all, c).value, p.value).error))
            && (LoopBody(all).Ok? ==>
                  LoopBody(all).value == Pass(FoldInto(all, c, Get(all, c).value, p.value).value, KeyList(all), c, p.value))
  {
    var ks := KeyList(all);
    var c := GetDeepestObj(ks).value;
    var i :| 0 <= i < |all| && ks[i] == c;
    KeyOfEntry(all, i);
    var data := Get(all, c).value;
    assert Lookup(all, c) == Ok(data);
    var p := GetParentFilename(c, ks);
    if p.Ok? {
      var f := FoldInto(all, c, data, p.value);
      if f.Ok? {
        assert LoopBody(all) == Ok(Pass(f.value, ks, c, p.value));
      } else {
        assert LoopBody(all) == Err(f.error);
      }
    } else {
      assert LoopBody(all) == Err(NoParent(""));
    }
  }

  /** A successful pass takes its snapshot of the current names in order;
      its child is the first name of greatest depth; its parent is the
      child's longest proper ancestor among the names; and the parent then
      holds the merge of its records with the child's cleaned records. */
  lemma PassChoosesAndMerges(all: Collections)
    requires Keyed(all) && |all| > 1 && LoopBody(all).Ok?
    ensures LoopBody(all).value.remaining == KeyList(all)
    ensures FirstDeepest(KeyList(all), LoopBody(all).value.child)
    ensures LongestPresentAncestor(KeyList(all), LoopBody(all).value.child, LoopBody(all).value.parent)
    ensures MergedInto(all, LoopBody(all).value.next, LoopBody(all).value.child, LoopBody(all).value.parent)
  {
    var remaining := KeyList(all);
    var child := GetDeepestObj(remaining).value;
    var parent := GetParentFilename(child, remaining).value;
    ParentIsLongestPresentAncestor(child, remaining);
    assert LoopBody(all).value == Pass(FoldInto(all, child, Get(all, child).value, parent).value, remaining, child, parent);
  }

  /** One pass, as an equation: given what each helper returns on the
      collection set, the pass merges into the parent and drops the child. */
  lemma PassOf(all: Collections, child: string, childData: seq<Record>, parent: string,
               parentData: seq<Record>, cleaned: seq<Record>, merged: seq<Record>)
    requires Keyed(all) && |all| > 1
    requires GetDeepestObj(KeyList(all)) == Ok(child)
    requires Lookup(all, child) == Ok(childData)
    requires GetParentFilename(child, KeyList(all)) == Ok(parent)
    requires Lookup(all, parent) == Ok(parentData)
    requires CleanObj(childData) == Ok(cleaned)
    requires Merge(parentData, cleaned, AttributeName(child, childData), parent) == Ok(merged)
    ensures LoopBody(all) == Ok(Pass(Remove(Set(all, parent, merged), child), KeyList(all), child, parent))
  {
  }

  /** The deeper of two names, the first on a tie. */
  lemma DeepestOfTwo(a: string, b: string)
    ensures GetDeepestObj([a, b]) == Ok(if Depth(b) > Depth(a) then b else a)
  {
    var names := [a, b];
    assert DeepestScan(names, 0, 0, 0) == DeepestScan(names, 1, Depth(a), 0);
    if Depth(b) > Depth(a) {
      assert DeepestScan(names, 1, Depth(a), 0) == DeepestScan(names, 2, Depth(b), 1);
    } else {
      assert DeepestScan(names, 1, Depth(a), 0) == DeepestScan(names, 2, Depth(a), 0);
    }
  }

  /** `clean_obj` of a single record with an id. */
  lemma CleanOne(c: Record)
    requires "id" in Keys(c)
    ensures CleanObj([c]) == Ok([CleanRecord(c).value])
  {
    assert [c][1..] == [];
    assert CleanObj([c][1..]) == Ok([]);
    assert [CleanRecord(c).value] + [] == [CleanRecord(c).value];
  }

  /** A single child record onto a single parent record. */
  lemma MergeOne(q: Record, c: Record, attr: string, parentKey: string)
    ensures Merge([q], [c], attr, parentKey) == Ok([Set(q, attr, Obj(c))])
  {
    assert ZipFrom([q][0 := Set(q, attr, Obj(c))], [c], attr, 1) == [Set(q, attr, Obj(c))];
  }

  /** The loop from the current collection set on; `last` is the snapshot
      of the latest pass, None before the first. It leaves a set of at most
      one collection alone; once it has run it stops at exactly one, with a
      snapshot of at least two names. */
  function Loop(all: Collections, last: Option<seq<string>>): (r: Result<(Collections, Option<seq<string>>)>)
    requires Keyed(all)
    ensures r.Ok? ==> Keyed(r.value.0)
    ensures |all| <= 1 ==> r == Ok((all, last))
    ensures |all| > 1 && r.Ok? ==> |r.value.0| == 1 && r.value.1.Some? && |r.value.1.value| >= 2
    ensures |all| > 1 && LoopBody(all).Err? ==> r == Err(LoopBody(all).error)
    decreases |all|
  {
    if |all| <= 1 then Ok((all, last))
    else
      var pass :- LoopBody(all);
      Loop(pass.next, Some(pass.remaining))
  }

  /** A successful pass hands its collection set and snapshot on. */
  lemma LoopStep(all: Collections, last: Option<seq<string>>)
    requires Keyed(all) && |all| > 1 && LoopBody(all).Ok?
    ensures Loop(all, last) == Loop(LoopBody(all).value.next, Some(LoopBody(all).value.remaining))
  {
  }

  /** In a proper dict of one entry, a present name is that entry's name. */
  lemma SingleEntry(final: Collections, k: string)
    requires Keyed(final) && |final| == 1 && k in Keys(final)
    ensures final[0].0 == k
    ensures Lookup(final, k) == Ok(final[0].1)
    ensures Remove(final, k) == []
  {
    assert Keys(final) == {final[0].0} + Keys(final[1..]);
    assert final[1..] == [];
  }

  /** `reconstruct_json(all_data)`: run the loop, then move the value of
      `remaining_keys[0]` (from the last snapshot) to that name plus "s".
      With at most one collection the loop never runs and the snapshot is
      unbound. A success is the one collection the loop left, renamed with
      a trailing "s" and holding the same records; a snapshot whose first
      name was the last child deleted makes the `pop` fail. */
  function ReconstructJson(all: Collections): (r: Result<Collections>)
    requires Keyed(all)
    ensures |all| <= 1 ==> r == Err(UnboundRemainingKeys)
    ensures |all| > 1 && Loop(all, None).Err? ==> r == Err(Loop(all, None).error)
    ensures |all| > 1 ==>
              (r.Ok? <==> Loop(all, None).Ok? && Loop(all, None).value.1.value[0] in Keys(Loop(all, None).value.0))
    ensures r.Ok? ==>
              && |all| > 1
              && Loop(all, None).Ok?
              && var (final, last) := Loop(all, None).value;
                 && |final| == 1
                 && last.value[0] == final[0].0
                 && r.value == [(last.value[0] + "s", final[0].1)]
    ensures |all| > 1 && Loop(all, None).Ok? && Loop(all, None).value.1.value[0] !in Keys(Loop(all, None).value.0) ==>
              r == Err(KeyError(Loop(all, None).value.1.value[0]))
  {
    var (final, last) :- Loop(all, None);
    match last
    case None => Err(UnboundRemainingKeys)
    case Some(remaining) =>
      if |remaining| == 0 then Err(IndexError("remaining_keys", 0))
      else
        var data :- Lookup(final, remaining[0]);
        SingleEntry(final, remaining[0]);
        Ok(Set(Remove(final, remaining[0]), remaining[0] + "s", data))
  }

  /** The rename as lines 113-115 evidently mean it: once the loop has
      left one collection, that one gets the trailing "s". It succeeds whenever the loop
      gets through a non-empty input, and agrees with `reconstruct_json`
      wherever that succeeds. */
  function RenameSurvivor(all: Collections): (r: Result<Collections>)
    requires Keyed(all)
    ensures r.Ok? <==> |all| > 0 && Loop(all, None).Ok?
    ensures r.Ok? ==> |r.value| == 1 && r.value[0].1 == Loop(all, None).value.0[0].1
    ensures ReconstructJson(all).Ok? ==> r == ReconstructJson(all)
  {
    var (final, _) :- Loop(all, None);
    if |final| == 0 then Err(UnboundRemainingKeys) else Ok([(final[0].0 + "s", final[0].1)])
  }
}
